=== FILE: README.md ===
# Chat client core: a Dafny model

This project models the client side of a workspace chat application: the
socket wrapper (`SocketService` in `src/lib/socket.js`), the one-to-one chat
view (`ChatInterface`), the channel chat view (`ChannelChatInterface`) and the
rules by which the message list is rendered (`MessageList`). It proves
properties of that model.

The modules follow the source:

- `Common` holds `Option`, JavaScript's `trim` and decimal printing.
- `Timeline` holds the message record and the duplicate check that both views
  apply to their timeline and their processed-id set. A message is admitted
  only when its id is neither processed nor already in the timeline.
- `Typing` holds the inbound typing list. It has one entry per user, and each
  start event schedules a 3000 ms removal.
- `Presence` holds the one-to-one view's online list and `isUserOnline`.
- `MessageList` holds the date separators, the grouping, the sender-name chain,
  the initials, the typing label and the empty state.
- `Socket` holds the `SocketService` class. It is a `class` whose fields are
  the held transport, the connected flag, the heartbeat interval, every event
  it emitted, and the ids of the timers and closures it creates. The transport
  is a record with its `connected` flag and its registered handlers in order.
  `off` removes the first registration equal to the one given, as an event
  emitter does.
- `ChatInterface.DirectChat` and `ChannelChatInterface.ChannelChat` are the
  two views as classes. Their fields are the React state and refs the handlers
  update. Each handler is one method and runs as one atomic step.

Timers are explicit. A `Fire*` method is the environment running a timer's
callback. The 3000 ms typing removals all share one delay, so they fire oldest
first. Server replies, the current time and the day a timestamp falls on are
parameters.

The model keeps these behaviours of the code, some of which look unintended:

- A sent message does not appear at once: the send handlers add nothing
  themselves. The message enters the timeline when the server sends it back,
  through the shared duplicate check. In the channel view that happens only
  through the acknowledgement (`ChannelChatInterface.OwnMessageOnlyViaAck`). In
  the one-to-one view the `receive-message` push addressed to the selected
  user also admits it (`ChatInterface.OwnPushAdmitted`), and whichever arrives
  first wins (`ChatInterface.PushThenAckAddsOnce`).
- A presence snapshot with the same id set as the current list keeps the
  current list, stale offline statuses included (`Presence.SameIdSetKeepsOffline`).
- Typing removal is not debounced. A second start event does not postpone the
  first start's removal (`Typing.RestartDoesNotRearm`).
- The one-to-one cleanup passes the raw presence callbacks to `off*`. The
  wrappers that `onOnlineUsers`/`onUserOnline`/`onUserOffline` registered stay
  registered, and so does the inline `socket-ready` closure
  (`ChatInterface.SetupThenCleanupLeaks`). The channel view's setup and cleanup
  restore the handler list exactly (`ChannelChatInterface.SetupThenCleanupRestores`).
- The one-to-one handlers are closures of the render that registered them. They
  compare against the chat selected then (`listenerChat`), not a chat selected
  later.
- The channel push handler does not check the message's `channelId`
  (`ChannelChatInterface.OtherChannelAdmitted`). The channel typing handler
  does not skip the current user.
- `typingTimeoutRef` is never reset. Clearing the one-to-one input therefore
  sends `stop-typing` even after the stop timer has fired. The channel view
  never sends a stop on a cleared input.
- A successful channel history reply without `result` throws while logging, so
  the view shows the default error and keeps its timeline.
- Every transport `connect` event registers one more `test-event` closure.
- The 500 ms deferred setups are never cancelled.

## Model

| member | source | states |
|---|---|---|
| Common.Trim | src/components/chat/ChatInterface.jsx:373 | the trimmed text is empty exactly when the input is blank, and otherwise starts and ends with a non-space character |
| Common.TrimIsSlice | src/components/chat/ChatInterface.jsx:402 | what `trim` keeps is one contiguous piece of the input, with only white space before and after it |
| Common.Decimal | src/components/chat/MessageList.jsx:270 | a printed count is a non-empty string of digits without a leading zero |
| Common.DecimalRoundTrip | src/components/chat/MessageList.jsx:270 | reading the printed count back gives the count |
| Common.DecimalInjective | src/components/chat/MessageList.jsx:270 | two different typer counts never print the same label number |
| Timeline.IdSetSnoc | src/components/chat/ChatInterface.jsx:209 | adding a message to a list adds exactly its id to the list's ids |
| Timeline.PageItems | src/components/chat/ChatInterface.jsx:201 | a page without `result` or without `messages` yields no messages, otherwise its list |
| Timeline.Loaded | src/components/chat/ChatInterface.jsx:205-211 | after a load the timeline is the page, every page id is processed and nothing else is |
| Timeline.Admit | src/components/chat/ChatInterface.jsx:231-248 | a processed or present id changes nothing; otherwise the message is appended and its id processed; distinct ids and coverage of the timeline by the processed set are kept |
| Timeline.AckStep | src/components/chat/ChatInterface.jsx:253-278 | an acknowledgement without success or message is ignored, otherwise it goes through the duplicate check |
| Timeline.SeenCheckSubsumesTimelineCheck | src/components/chat/ChatInterface.jsx:231-243 | when every timeline id is processed, the timeline check never rejects what the processed-set check let through |
| Timeline.SameIdTwiceAddsOnce | src/components/chat/ChatInterface.jsx:225-278 | two deliveries with one id add at most one entry, the first delivered one when the id was new |
| Timeline.AdmitAllInvariants | src/components/chat/ChatInterface.jsx:225-251 | any run of deliveries only appends, keeps ids distinct and covered, and processes exactly the delivered ids |
| Timeline.RedeliveryIsNoop | src/components/chat/ChatInterface.jsx:231-234 | redelivering processed ids leaves the timeline untouched |
| Timeline.AdmitAllIdempotent | src/components/chat/ChatInterface.jsx:225-251 | delivering a batch twice has the effect of delivering it once |
| Typing.WithoutUser | src/components/chat/ChatInterface.jsx:289 | the filter keeps only entries of other users, each from the input |
| Typing.WithoutUserKeepsOthers | src/components/chat/ChatInterface.jsx:289 | the filter removes every entry of the user and keeps every other user's entries in order |
| Typing.WithoutUserOnePerUser | src/components/chat/ChatInterface.jsx:309 | the filter keeps the list at one entry per user |
| Typing.Started | src/components/chat/ChatInterface.jsx:288-291 | after a start event the new entry is last |
| Typing.StartedShape | src/components/chat/ChatInterface.jsx:288-291 | after a start event the user has exactly the new entry, other users are untouched and one entry per user is kept |
| Typing.Start | src/components/chat/ChatInterface.jsx:288-296 | a start event schedules one removal for the user and keeps every shown user with a pending removal |
| Typing.Stop | src/components/chat/ChatInterface.jsx:308-310 | a stop event keeps the pending removals and the typing invariant |
| Typing.ExpireOldest | src/components/chat/ChatInterface.jsx:294-296 | the oldest removal fires and the invariant is kept |
| Typing.ShownImpliesPending | src/components/chat/ChatInterface.jsx:293-296 | a non-empty typing list always has a removal pending |
| Typing.ExpireAll | src/components/chat/ChatInterface.jsx:294-296 | once every removal has fired none is pending |
| Typing.AllExpiredShowsNobody | src/components/chat/ChatInterface.jsx:293-296 | once every removal has fired nobody is shown typing |
| Typing.RestartDoesNotRearm | src/components/chat/ChatInterface.jsx:288-296 | a user who starts twice disappears when the first removal fires, with the second still pending |
| Typing.StartShowsUser | src/components/chat/ChatInterface.jsx:288-291 | a start event shows its user at once |
| Presence.FindIndex | src/components/chat/ChatInterface.jsx:344 | the index of the first entry for the user, or -1 exactly when there is none |
| Presence.AllOnline | src/components/chat/ChatInterface.jsx:320-323 | one online entry per snapshot id, in order |
| Presence.Snapshot | src/components/chat/ChatInterface.jsx:316-338 | the ids afterwards are the snapshot's; an equal id set keeps the list, a different one replaces it with all-online entries |
| Presence.MarkOnline | src/components/chat/ChatInterface.jsx:340-352 | the user is online afterwards, the ids gain only the user, other users' status is unchanged and one entry per user is kept |
| Presence.MarkOffline | src/components/chat/ChatInterface.jsx:354-364 | the list never grows, an unknown user changes nothing, other users are unchanged and with one entry per user the user is offline |
| Presence.OthersUnchanged | src/components/chat/ChatInterface.jsx:342-350 | an update touching only one user's entries keeps every other user's online status |
| Presence.ChangedSnapshotIsAuthoritative | src/components/chat/ChatInterface.jsx:456-463 | after a snapshot that changed the id set, `isUserOnline` holds exactly for the listed users |
| Presence.SnapshotOnlyShowsListed | src/components/chat/ChatInterface.jsx:456-463 | after any snapshot an unlisted user is not online |
| Presence.SameIdSetKeepsOffline | src/components/chat/ChatInterface.jsx:331-336 | a snapshot listing a user marked offline, with the same id set, leaves the user offline |
| Presence.OfflineAfterSnapshot | src/components/chat/ChatInterface.jsx:354-364 | an offline event after a snapshot listing the user leaves the user offline |
| Presence.SnapshotUnique | src/components/chat/ChatInterface.jsx:316-338 | a snapshot with distinct ids keeps one entry per user |
| MessageList.FindBy | src/components/chat/MessageList.jsx:66 | `find` returns the first member whose id field matches, and none exactly when no member matches |
| MessageList.LookupUser | src/components/chat/MessageList.jsx:64-76 | the chain finds a member exactly when some field of some member matches; the member found carries the id; a userId match wins, then `_id`, then `id` |
| MessageList.Last4 | src/components/chat/MessageList.jsx:89 | `slice(-4)` is the last four characters, or the whole of a shorter id |
| MessageList.SenderName | src/components/chat/MessageList.jsx:55-90 | "You" for the current user, then `senderName`, `sender.name`, the member's name, "User " with the id suffix, "Unknown User" |
| MessageList.UserIdMatchWins | src/components/chat/MessageList.jsx:66-81 | the first member matched by userId names the sender, whatever the other members' other ids |
| MessageList.FallbackShowsIdSuffix | src/components/chat/MessageList.jsx:89 | without a name source the label is "User " followed by the id's last four characters |
| MessageList.Split | src/components/chat/MessageList.jsx:52 | a split always yields at least one word |
| MessageList.UpperAll | src/components/chat/MessageList.jsx:52 | upper-casing maps every character and keeps the length |
| MessageList.Initials | src/components/chat/MessageList.jsx:50-53 | an empty name gives "U", any name at most two initials |
| MessageList.HeadsOfSplit | src/components/chat/MessageList.jsx:52 | the initials are empty exactly for an all-space name, and a name starting with a letter starts with it |
| MessageList.BlankNameHasNoInitials | src/components/chat/MessageList.jsx:50-53 | a non-empty all-space name gets empty initials, not "U" |
| MessageList.NamedInitials | src/components/chat/MessageList.jsx:50-53 | a name with a non-space character gets one or two initials, the first its upper-cased first letter |
| MessageList.SplitAfterWord | src/components/chat/MessageList.jsx:52 | a word, a space and more text split into that word and the split of the rest |
| MessageList.SplitWord | src/components/chat/MessageList.jsx:52 | a word without spaces splits into itself |
| MessageList.TwoWordInitials | src/components/chat/MessageList.jsx:50-53 | "first last" gives the two upper-cased first letters |
| MessageList.TypingLabel | src/components/chat/MessageList.jsx:243-271 | no label without typers; one typer is named by lookup or the fallback; n typers give "n people are typing..." |
| MessageList.RowAt | src/components/chat/MessageList.jsx:142-148 | a row has a separator first and exactly on each day change; it is grouped exactly when it follows the same sender within five minutes on the same day (a `createdAt` of 0 falls back to `sentAt`); it is own exactly for the current user; it shows the sender-name chain, and when not grouped the initials of the user's own name (or "You") or of that sender |
| MessageList.Render | src/components/chat/MessageList.jsx:225-243 | the empty state exactly for no messages; otherwise one row per message in order, each with the separator, grouping-iff, own, sender and avatar rules, then the typing label |
| MessageList.OneDayOneSeparator | src/components/chat/MessageList.jsx:27-34 | messages of one day show a single separator, above the first |
| Socket.RemoveFirst | src/lib/socket.js:203-207 | `off` of an unregistered function changes nothing, otherwise it removes exactly one registration |
| Socket.Emitted | src/lib/socket.js:72-74 | an emit guarded by the socket sends the event exactly when a socket is held |
| Socket.Added | src/lib/socket.js:124-128 | registering keeps the connection flag and appends to the handlers; no socket stays no socket |
| Socket.Removed | src/lib/socket.js:203-207 | removing keeps the connection flag and applies `off` for each; no socket stays no socket |
| Socket.SocketService.constructor | src/lib/socket.js:4-7 | no socket, not connected, no heartbeat, nothing sent |
| Socket.SocketService.IsSocketConnected | src/lib/socket.js:234-236 | connected only with a socket, and under the invariant exactly the service flag |
| Socket.SocketService.StopHeartbeat | src/lib/socket.js:259-264 | no heartbeat interval is live afterwards |
| Socket.SocketService.StartHeartbeat | src/lib/socket.js:246-256 | the old interval is cleared and exactly one new interval is live |
| Socket.SocketService.HeartbeatTick | src/lib/socket.js:251-255 | a tick sends a heartbeat exactly when a connected socket is held |
| Socket.SocketService.Disconnect | src/lib/socket.js:61-68 | no socket, not connected, no heartbeat afterwards; a second call changes nothing |
| Socket.SocketService.Connect | src/lib/socket.js:9-59 | any held socket is dropped first; the new transport is unconnected and carries exactly the four lifecycle handlers |
| Socket.SocketService.OnTransportConnect | src/lib/socket.js:28-42 | connected afterwards; one more `test-event` handler; `socket-ready` sent; one fresh heartbeat live |
| Socket.SocketService.OnTransportDisconnect | src/lib/socket.js:44-47 | not connected afterwards, the heartbeat keeps running |
| Socket.SocketService.OnConnectError | src/lib/socket.js:49-52 | not connected afterwards |
| Socket.SocketService.EmitIfOpen | src/lib/socket.js:70-121 | an emit is sent only with a socket held |
| Socket.SocketService.EmitOnTransport | src/components/chat/ChatInterface.jsx:154 | an emit on the held transport is sent |
| Socket.SocketService.JoinPersonalRoom | src/lib/socket.js:71-75 | `join` with the user id, when a socket is held |
| Socket.SocketService.JoinChannel | src/lib/socket.js:78-82 | `join-channel` with channel and workspace, when a socket is held |
| Socket.SocketService.SendMessage | src/lib/socket.js:85-89 | `send-message` with the payload, when a socket is held |
| Socket.SocketService.SendChannelMessage | src/lib/socket.js:92-96 | `send-message-to-channel` with the payload, when a socket is held |
| Socket.SocketService.StartTyping | src/lib/socket.js:99-103 | `typing` with receiver, conversation and user, when a socket is held |
| Socket.SocketService.StopTyping | src/lib/socket.js:105-109 | `stop-typing` with receiver, conversation and user, when a socket is held |
| Socket.SocketService.StartTypingInChannel | src/lib/socket.js:111-115 | `typing-to-channel` with channel, workspace and user, when a socket is held |
| Socket.SocketService.StopTypingInChannel | src/lib/socket.js:117-121 | `stop-typing-to-channel` with channel, workspace and user, when a socket is held |
| Socket.SocketService.On | src/lib/socket.js:123-152 | the handler is appended for its event, when a socket is held |
| Socket.SocketService.Off | src/lib/socket.js:203-207 | the first registration of that function for that event is removed, when a socket is held |
| Socket.SocketService.OnWrapped | src/lib/socket.js:154-188 | a fresh wrapper closure around the callback is registered, and minted only with a socket |
| Socket.SocketService.OnMessage | src/lib/socket.js:124-128 | registers the callback for `receive-message` |
| Socket.SocketService.OnChannelMessage | src/lib/socket.js:130-134 | registers the callback for `receive-message-to-channel` |
| Socket.SocketService.OnTyping | src/lib/socket.js:136-140 | registers the callback for `typing` |
| Socket.SocketService.OnStopTyping | src/lib/socket.js:142-146 | registers the callback for `stop-typing` |
| Socket.SocketService.OnChannelTyping | src/lib/socket.js:148-152 | registers the callback for `typing-to-channel` |
| Socket.SocketService.OnAckSendMessage | src/lib/socket.js:190-194 | registers the callback for `ack-send-message` |
| Socket.SocketService.OnAckSendChannelMessage | src/lib/socket.js:196-200 | registers the callback for `ack-send-message-to-channel` |
| Socket.SocketService.OnSocketReady | src/lib/socket.js:239-243 | registers the callback for `socket-ready` |
| Socket.SocketService.OnUserOnline | src/lib/socket.js:154-164 | registers a new wrapper around the callback for `user-online` |
| Socket.SocketService.OnUserOffline | src/lib/socket.js:166-176 | registers a new wrapper around the callback for `user-offline` |
| Socket.SocketService.OnOnlineUsers | src/lib/socket.js:178-188 | registers a new wrapper around the callback for `online-users` |
| Socket.SocketService.OffUserOnline | src/lib/socket.js:210-214 | removes the raw callback from `user-online`, not its wrapper |
| Socket.SocketService.OffUserOffline | src/lib/socket.js:216-220 | removes the raw callback from `user-offline`, not its wrapper |
| Socket.SocketService.OffOnlineUsers | src/lib/socket.js:222-226 | removes the raw callback from `online-users`, not its wrapper |
| Socket.RemoveFirstRemovesOne | src/lib/socket.js:205 | `off` lowers the count of that registration by one and leaves every other count |
| Socket.RemoveFirstAppend | src/lib/socket.js:205 | `off` removes from the earlier part of the list when it has a match there |
| Socket.OffKeepsWrapper | src/lib/socket.js:210-226 | `off*` of the raw callback never lowers the count of its wrapper |
| Socket.PresenceRegistrationLeaks | src/lib/socket.js:154-226 | registering a presence callback and calling the matching `off*` leaves the wrapper registered, last |
| Socket.RemoveEachAppend | src/lib/socket.js:203-207 | two runs of `off` equal one run over both lists |
| Socket.RemovedTwice | src/lib/socket.js:203-207 | two removals on the held transport equal one over both lists |
| Socket.AddedTwice | src/lib/socket.js:123-200 | two registrations on the held transport equal one over both lists |
| Socket.OnThenOffRestores | src/lib/socket.js:123-207 | `on` then `off` of the same function restores the counts, and the list itself when it was unregistered before |
| Socket.RemoveEachBehind | src/lib/socket.js:203-207 | removals with no match in the front part act on the rest only |
| Socket.RemoveEachPrefix | src/lib/socket.js:203-207 | removing a list's leading registrations in order leaves the rest |
| Socket.OffMissing | src/lib/socket.js:203-207 | removing unregistered functions changes nothing |
| ChatInterface.PushStep | src/components/chat/ChatInterface.jsx:225-251 | a push is admitted exactly when successful, with a message, and from or to the selected user, keeping distinct and covered ids |
| ChatInterface.OwnPushAdmitted | src/components/chat/ChatInterface.jsx:225-251 | the user's own message pushed back addressed to the selected user is appended by the push handler, with no acknowledgement |
| ChatInterface.PushThenAckAddsOnce | src/components/chat/ChatInterface.jsx:225-278 | a push followed by the acknowledgement of the same id adds one entry |
| ChatInterface.AckThenPushAddsOnce | src/components/chat/ChatInterface.jsx:225-278 | an acknowledgement followed by the push of the same id adds one entry |
| ChatInterface.OtherConversationIgnored | src/components/chat/ChatInterface.jsx:236 | a push neither from nor to the selected user never changes the timeline |
| ChatInterface.TypingStep | src/components/chat/ChatInterface.jsx:280-299 | a relevant notice shows exactly one entry for the sender, last, with a new pending removal; other users untouched; irrelevant ones ignored |
| ChatInterface.StopTypingStep | src/components/chat/ChatInterface.jsx:301-312 | a relevant notice removes the sender at once and keeps every removal pending; other users untouched |
| ChatInterface.OwnTypingIgnored | src/components/chat/ChatInterface.jsx:282 | the current user's own typing notices never change the list |
| ChatInterface.CleanupOfSetup | src/components/chat/ChatInterface.jsx:128-166 | cleanup over the setup registrations leaves the three presence wrappers and the `socket-ready` closure |
| ChatInterface.SetupThenCleanupLeaks | src/components/chat/ChatInterface.jsx:115-174 | setup then cleanup leaves the earlier handlers followed by the leaked four |
| ChatInterface.DirectChat.constructor | src/components/chat/ChatInterface.jsx:28-44 | empty view state with `initialChat` selected |
| ChatInterface.DirectChat.LoadMessages | src/components/chat/ChatInterface.jsx:176-223 | no chat: nothing; channel: only the error clears; user chat: page 1 of 50 is requested, success loads the page, failure shows the server's or the default error and keeps the timeline |
| ChatInterface.DirectChat.HandleNewMessage | src/components/chat/ChatInterface.jsx:225-251 | the timeline steps as `PushStep` for the chat the handler captured |
| ChatInterface.DirectChat.HandleMessageAck | src/components/chat/ChatInterface.jsx:253-278 | the timeline steps as `AckStep` |
| ChatInterface.DirectChat.HandleTyping | src/components/chat/ChatInterface.jsx:280-299 | the typing list steps as `TypingStep` |
| ChatInterface.DirectChat.HandleStopTyping | src/components/chat/ChatInterface.jsx:301-312 | the typing list steps as `StopTypingStep` |
| ChatInterface.DirectChat.FireTypingExpiry | src/components/chat/ChatInterface.jsx:294-296 | the oldest removal fires, keeping the invariant |
| ChatInterface.DirectChat.HandleOnlineUsers | src/components/chat/ChatInterface.jsx:316-338 | the presence list steps as `Snapshot`, a missing list counting as empty |
| ChatInterface.DirectChat.HandleUserOnline | src/components/chat/ChatInterface.jsx:340-352 | the presence list steps as `MarkOnline` |
| ChatInterface.DirectChat.HandleUserOffline | src/components/chat/ChatInterface.jsx:354-364 | the presence list steps as `MarkOffline` |
| ChatInterface.DirectChat.HandleUserSelect | src/components/chat/ChatInterface.jsx:447-451 | the user chat is selected and the timeline emptied |
| ChatInterface.DirectChat.ClearStopTimer | src/components/chat/ChatInterface.jsx:168-170 | no stop timer is pending afterwards |
| ChatInterface.DirectChat.SignalTyping | src/components/chat/ChatInterface.jsx:429-439 | `typing` goes to the selected user and exactly one stop timer, for that user, is armed |
| ChatInterface.DirectChat.SignalStopTyping | src/components/chat/ChatInterface.jsx:440-444 | the stop timer is cleared and `stop-typing` goes to the selected user |
| ChatInterface.DirectChat.SendTo | src/components/chat/ChatInterface.jsx:391-414 | stop-typing if a timer was ever armed, then the message to the peer; input and error cleared |
| ChatInterface.DirectChat.HandleSendMessage | src/components/chat/ChatInterface.jsx:370-421 | a blank input, disconnection, no chat or a channel chat sends nothing and changes nothing; otherwise the trimmed text goes to the selected user |
| ChatInterface.DirectChat.HandleInputChange | src/components/chat/ChatInterface.jsx:423-445 | the input always updates; typed text while connected in a user chat sends `typing` and re-arms the stop timer; a blank input after any armed timer sends `stop-typing` |
| ChatInterface.DirectChat.FireStopTimer | src/components/chat/ChatInterface.jsx:436-439 | `stop-typing` names the peer the timer was armed for |
| ChatInterface.DirectChat.Cleanup | src/components/chat/ChatInterface.jsx:158-174 | the seven raw callbacks are removed, the stop timer cleared and the flag reset |
| ChatInterface.DirectChat.RegisterHandlers | src/components/chat/ChatInterface.jsx:128-141 | exactly the eight setup registrations are appended, in order |
| ChatInterface.DirectChat.Setup | src/components/chat/ChatInterface.jsx:115-156 | skipped while registered; otherwise join, register, copy the status, and ask for online users when connected |
| ChatInterface.DirectChat.Initialize | src/components/chat/ChatInterface.jsx:97-113 | cleanup, then when connected an immediate setup (handler list: the cleanup's offs, then the eight registrations; the join and request emits), else only the offs and one deferred setup |
| ChatInterface.DirectChat.FireDeferredSetup | src/components/chat/ChatInterface.jsx:107-109 | a deferred setup runs even after cleanup: when not registered it registers the eight handlers again and joins; when registered nothing changes |
| ChatInterface.DirectChat.AskForOnlineUsers | src/components/chat/ChatInterface.jsx:137-141 | `request-online-users` is sent on the held transport |
| ChatInterface.DirectChat.PollConnection | src/components/chat/ChatInterface.jsx:533-552 | the flag follows the service; a change to connected schedules one request |
| ChatInterface.DirectChat.FirePendingRequest | src/components/chat/ChatInterface.jsx:543-545 | the scheduled request is sent when a socket is held |
| ChatInterface.DirectChat.TypingLine | src/components/chat/ChatInterface.jsx:830-846 | no line without typers; one typer is named by lookup, else by the selected user's name or "Someone"; several give "n people are typing..." |
| ChannelChatInterface.ChannelPushStep | src/components/chat/ChannelChatInterface.jsx:177-203 | a push is admitted exactly when successful, with a message, and not sent by the current user |
| ChannelChatInterface.OwnMessageOnlyViaAck | src/components/chat/ChannelChatInterface.jsx:187-244 | the user's own message enters only through its acknowledgement, once, in either arrival order |
| ChannelChatInterface.OtherChannelAdmitted | src/components/chat/ChannelChatInterface.jsx:177-203 | a new message for another channel is appended like one for this channel |
| ChannelChatInterface.ChannelTypingStep | src/components/chat/ChannelChatInterface.jsx:205-217 | a notice for this channel leaves one entry for the sender, placed last, with a new pending removal; others untouched; entries stay in the channel |
| ChannelChatInterface.ExpireKeepsChannel | src/components/chat/ChannelChatInterface.jsx:213-215 | a removal firing keeps every entry in the channel |
| ChannelChatInterface.FindMember | src/components/chat/ChannelChatInterface.jsx:308 | the first member with the id, none exactly when no member has it |
| ChannelChatInterface.MemberName | src/components/chat/ChannelChatInterface.jsx:308-309 | the first matching member's name when non-empty; "Someone" when that name is empty or no member matches; never empty |
| ChannelChatInterface.InChannel | src/components/chat/ChannelChatInterface.jsx:305-306 | the filter keeps only entries of this channel, keeps everything when all are, and is empty exactly when none is |
| ChannelChatInterface.InChannelFrom | src/components/chat/ChannelChatInterface.jsx:305-306 | every entry the filter keeps is an entry of the input |
| ChannelChatInterface.InChannelAppend | src/components/chat/ChannelChatInterface.jsx:305-306 | filtering a concatenation filters each part and keeps them in order, so on any list the kept entries stay in list order |
| ChannelChatInterface.NamesOf | src/components/chat/ChannelChatInterface.jsx:307-310 | one member name per entry, position by position |
| ChannelChatInterface.TypingNames | src/components/chat/ChannelChatInterface.jsx:305-310 | when every entry is in the channel, one name per entry in order; on any list, empty exactly when no entry is in the channel |
| ChannelChatInterface.TypingNamesAppend | src/components/chat/ChannelChatInterface.jsx:305-310 | on any list, mixed channels included, the names of a concatenation are the names of each part in order |
| ChannelChatInterface.Join | src/components/chat/ChannelChatInterface.jsx:316 | joining no names is empty, one name is itself, and the first name leads |
| ChannelChatInterface.JoinSplit | src/components/chat/ChannelChatInterface.jsx:316 | the joined text is the names in order with the separator between each two: it splits at any inner position into the two joined parts |
| ChannelChatInterface.TypingIndicator | src/components/chat/ChannelChatInterface.jsx:302-319 | no line exactly when nobody types in the channel; otherwise the joined names with "is" or "are" |
| ChannelChatInterface.IndicatorForOneTyper | src/components/chat/ChannelChatInterface.jsx:302-319 | with entries of this channel only, a line exactly when someone types, one typer named by member name |
| ChannelChatInterface.IndicatorForSeveralTypers | src/components/chat/ChannelChatInterface.jsx:305-316 | several typers in the channel give every member name in list order, joined by ", ", with "are typing..." |
| ChannelChatInterface.IndicatorForTwoTypers | src/components/chat/ChannelChatInterface.jsx:305-316 | two typers are named in list order, joined by ", ", with "are typing..." |
| ChannelChatInterface.SetupThenCleanupRestores | src/components/chat/ChannelChatInterface.jsx:101-122 | setup then cleanup restores the handler list exactly |
| ChannelChatInterface.ChannelChat.constructor | src/components/chat/ChannelChatInterface.jsx:29-43 | empty view state; members from the channel, none when absent |
| ChannelChatInterface.ChannelChat.LoadMessages | src/components/chat/ChannelChatInterface.jsx:139-171 | page 1 of 50 is requested; success loads the page; success without `result` or failure show an error and keep the timeline |
| ChannelChatInterface.ChannelChat.HandleNewMessage | src/components/chat/ChannelChatInterface.jsx:177-203 | the timeline steps as `ChannelPushStep` |
| ChannelChatInterface.ChannelChat.HandleMessageAck | src/components/chat/ChannelChatInterface.jsx:219-244 | the timeline steps as `AckStep` |
| ChannelChatInterface.ChannelChat.HandleTyping | src/components/chat/ChannelChatInterface.jsx:205-217 | the typing list steps as `ChannelTypingStep` |
| ChannelChatInterface.ChannelChat.FireTypingExpiry | src/components/chat/ChannelChatInterface.jsx:213-215 | the oldest removal fires, keeping the invariant |
| ChannelChatInterface.ChannelChat.TypingLine | src/components/chat/ChannelChatInterface.jsx:302-319 | a line exactly when someone types; one typer is named by member name; several are joined in list order with "are typing..." |
| ChannelChatInterface.ChannelChat.HandleSendMessage | src/components/chat/ChannelChatInterface.jsx:246-275 | a blank input or disconnection changes nothing; otherwise the trimmed text goes to the channel |
| ChannelChatInterface.ChannelChat.HandleKeyPress | src/components/chat/ChannelChatInterface.jsx:295-300 | any other key, or Enter on a blank input or a disconnected view, changes nothing; Enter without Shift otherwise sends the trimmed text and clears the input and the error |
| ChannelChatInterface.ChannelChat.HandleInputChange | src/components/chat/ChannelChatInterface.jsx:277-293 | the input always updates; typed text while connected sends `typing-to-channel` and re-arms the stop timer; nothing else is sent |
| ChannelChatInterface.ChannelChat.FireStopTimer | src/components/chat/ChannelChatInterface.jsx:288-291 | `stop-typing-to-channel` is sent |
| ChannelChatInterface.ChannelChat.Cleanup | src/components/chat/ChannelChatInterface.jsx:114-126 | the stop timer is cleared, the three handlers removed and the flag reset |
| ChannelChatInterface.ChannelChat.Setup | src/components/chat/ChannelChatInterface.jsx:88-112 | skipped while registered; otherwise join the channel, register the three handlers and copy the status |
| ChannelChatInterface.ChannelChat.Initialize | src/components/chat/ChannelChatInterface.jsx:71-86 | cleanup, then when connected an immediate setup (offs then re-registration, the `join-channel` emit), else only the offs and one deferred setup |
| ChannelChatInterface.ChannelChat.FireDeferredSetup | src/components/chat/ChannelChatInterface.jsx:80-82 | a deferred setup runs even after cleanup: when not registered it registers the three handlers again and joins the channel; when registered nothing changes |

## Left out

- The `loading` flag, rendering, scrolling, the dropdowns, search and the member list are not modelled. They do not feed any handler's decisions.
- Dates and times are integers. The calendar day of a timestamp is the parameter `dayOf`, and the "Today"/"Yesterday"/locale formatting is not modelled.
- Message bodies other than text are not modelled: image and file rendering, the media list and `messageType`, which is always 'text' in what the views send.
- `src/lib/api.js` is not part of this model. A history request is returned as a value, and the server's answer is a parameter.
- socket.io's own reconnection and the transport's `disconnect()` call are not modelled. The transport's events are methods the environment calls.
- Common.Trim: recognises ASCII white space, no-break space, the byte order mark and the line and paragraph separators, not the other Unicode space characters JavaScript's `trim` removes.
- MessageList.UpperAll: upper-cases ASCII letters only, not the rest of Unicode.
- MessageList.Initials: strings are sequences of Unicode characters, not UTF-16 code units; for a word starting outside the Basic Multilingual Plane (an emoji) `n[0]` yields a lone surrogate where the model yields the whole character, and `Last4` (`slice(-4)`) and the two-initial cut (`slice(0, 2)`) differ the same way.
- The `error` event handler and every console message only log. They are not modelled.
- Each view is one instance, and its handler functions are identified by the view (`owner`). React re-creating the functions on every render is not modelled. The cleanup a view runs always names the functions its own setup registered, so this loses nothing for the registration lists.
- React's batching of state updates is not modelled. Each handler's updates apply at once.
- Timer ids come from a counter per view and per service, not from one browser-wide counter.
- `loadChannelMembers` is modelled by the channel members being fixed at construction. Its try/catch can never catch anything.
- The `initialChat` effect that joins a channel is not modelled. `selectedChat` starts as `initialChat`, so that effect's condition never holds.
- The debug logging of the online list every second is not modelled.

=== FILE: channel_chat_interface.dfy ===
/** The channel chat view (`ChannelChatInterface`): its timeline and
    processed-id set, inbound typing indicators with the typing line under the
    list, the outbound typing timer, the send guard and its socket handler
    registration.

    The view's channel, workspace and user are fixed for its lifetime, so the
    handlers it registers see the same values whenever they run. Each handler
    runs as one atomic step. Timer ids come from the view's own counter. */
module ChannelChatInterface {
  import opened Common
  import opened Timeline
  import Typing
  import opened Socket

  /** Default page and page size of a history request. */
  const FirstPage := 1
  const PageSize := 50

  /** One entry of `channel.members`: `{userId, name}`, name "" when absent. */
  datatype Member = Member(userId: UserId, name: string)

  /** The payload of `typing-to-channel`: `{userId, channelId}`. */
  datatype ChannelTypingNotice = ChannelTypingNotice(userId: UserId, channelId: Option<string>)

  /** `handleNewChannelMessage` on the timeline: a successful push with a
      message that the current user did not send goes through the shared
      duplicate check; anything else is ignored. The message's channel is not
      looked at. */
  function ChannelPushStep(t: TimelineState, me: UserId, d: Delivery): (r: TimelineState)
    ensures !d.success || d.message.None? || d.message.value.senderId == Some(me) ==> r == t
    ensures d.success && d.message.Some? && d.message.value.senderId != Some(me) ==> r == Admit(t, d.message.value)
    ensures Covered(t) ==> Covered(r)
    ensures DistinctIds(t.messages) ==> DistinctIds(r.messages)
  {
    if d.success && d.message.Some? && d.message.value.senderId != Some(me) then Admit(t, d.message.value) else t
  }

  /** The current user's own message enters the timeline only through its
      acknowledgement, exactly once, whether the echo of the push arrives
      before or after it. */
  lemma OwnMessageOnlyViaAck(t: TimelineState, me: UserId, m: Message, echo: Message)
    requires Covered(t) && m.id !in t.seen
    requires m.senderId == Some(me) && echo.senderId == Some(me)
    ensures ChannelPushStep(t, me, Delivery(true, Some(echo))) == t
    ensures AckStep(ChannelPushStep(t, me, Delivery(true, Some(echo))), Delivery(true, Some(m))).messages
         == t.messages + [m]
    ensures ChannelPushStep(AckStep(t, Delivery(true, Some(m))), me, Delivery(true, Some(echo))).messages
         == t.messages + [m]
  {
    SeenCheckSubsumesTimelineCheck(t, m);
  }

  /** A push of another user's message for a different channel is appended
      like one for this channel. */
  lemma OtherChannelAdmitted(t: TimelineState, me: UserId, channelId: string, m: Message)
    requires Covered(t) && m.id !in t.seen
    requires m.senderId != Some(me) && m.channelId.Some? && m.channelId.value != channelId
    ensures ChannelPushStep(t, me, Delivery(true, Some(m))).messages == t.messages + [m]
  {
    SeenCheckSubsumesTimelineCheck(t, m);
  }

  /** Every typing entry belongs to `channelId`. */
  predicate AllInChannel(es: seq<Typing.TypingEntry>, channelId: string)
  {
    forall i :: 0 <= i < |es| ==> es[i].channelId == Some(channelId)
  }

  /** `handleChannelTyping`: a notice for this channel replaces the sender's
      entry with `{userId, channelId}` and schedules its removal; any sender,
      the current user included. Other channels are ignored. */
  function ChannelTypingStep(s: Typing.TypingState, channelId: string, n: ChannelTypingNotice): (r: Typing.TypingState)
    ensures n.channelId != Some(channelId) ==> r == s
    ensures n.channelId == Some(channelId) ==>
      Typing.EntriesOf(r.entries, n.userId) == [Typing.TypingEntry(n.userId, Some(channelId), None)] &&
      r.expiries == s.expiries + [n.userId]
    ensures n.channelId == Some(channelId) ==>
      |r.entries| >= 1 && r.entries[|r.entries| - 1] == Typing.TypingEntry(n.userId, Some(channelId), None)
    ensures forall v :: v != n.userId ==> Typing.EntriesOf(r.entries, v) == Typing.EntriesOf(s.entries, v)
    ensures Typing.Valid(s) ==> Typing.Valid(r)
    ensures AllInChannel(s.entries, channelId) ==> AllInChannel(r.entries, channelId)
  {
    if n.channelId == Some(channelId) then
      var e := Typing.TypingEntry(n.userId, Some(channelId), None);
      forall v | v != n.userId ensures Typing.EntriesOf(Typing.Start(s, e).entries, v) == Typing.EntriesOf(s.entries, v) {
        Typing.StartedShape(s.entries, e, v);
      }
      Typing.StartedShape(s.entries, e, n.userId);
      assert AllInChannel(s.entries, channelId) ==> AllInChannel(Typing.Start(s, e).entries, channelId) by {
        if AllInChannel(s.entries, channelId) {
          var r := Typing.Start(s, e).entries;
          forall i | 0 <= i < |r| ensures r[i].channelId == Some(channelId) {
            if i < |r| - 1 {
              assert r[i] in Typing.WithoutUser(s.entries, e.userId);
            }
          }
        }
      }
      Typing.Start(s, e)
    else s
  }

  /** The oldest removal firing keeps every entry in the channel. */
  lemma ExpireKeepsChannel(s: Typing.TypingState, channelId: string)
    requires s.expiries != [] && AllInChannel(s.entries, channelId)
    ensures AllInChannel(Typing.ExpireOldest(s).entries, channelId)
  {
    var r := Typing.ExpireOldest(s).entries;
    forall i | 0 <= i < |r| ensures r[i].channelId == Some(channelId) {
      assert r[i] in s.entries;
    }
  }

  /** `k` is the first member with id `u`. */
  predicate FirstMember(members: seq<Member>, u: UserId, k: int)
  {
    0 <= k < |members| && members[k].userId == u &&
    forall j :: 0 <= j < k ==> members[j].userId != u
  }

  /** `channelMembers.find(m => m.userId === u)`. */
  function FindMember(members: seq<Member>, u: UserId): (r: Option<Member>)
    ensures r.None? <==> forall i :: 0 <= i < |members| ==> members[i].userId != u
    ensures r.Some? ==> exists k :: FirstMember(members, u, k) && members[k] == r.value
    decreases |members|
  {
    if members == [] then None
    else if members[0].userId == u then
      assert FirstMember(members, u, 0);
      Some(members[0])
    else
      var r := FindMember(members[1..], u);
      if r.Some? then
        var k :| FirstMember(members[1..], u, k) && members[1..][k] == r.value;
        assert FirstMember(members, u, k + 1);
        r
      else r
  }

  /** `member?.name || 'Someone'`. */
  function MemberName(members: seq<Member>, u: UserId): (r: string)
    ensures r != ""
    ensures (forall i :: 0 <= i < |members| ==> members[i].userId != u) ==> r == "Someone"
    ensures forall k :: FirstMember(members, u, k) && members[k].name != "" ==> r == members[k].name
    ensures forall k :: FirstMember(members, u, k) && members[k].name == "" ==> r == "Someone"
  {
    var m := FindMember(members, u);
    if m.Some? && m.value.name != "" then m.value.name else "Someone"
  }

  /** `typingUsers.filter(u => u.channelId === channel._id)`: the entries for
      `channelId`, in list order. */
  function InChannel(es: seq<Typing.TypingEntry>, channelId: string): (r: seq<Typing.TypingEntry>)
    ensures |r| <= |es|
    ensures AllInChannel(r, channelId)
    ensures AllInChannel(es, channelId) ==> r == es
    ensures r == [] <==> forall i :: 0 <= i < |es| ==> es[i].channelId != Some(channelId)
    decreases |es|
  {
    if es == [] then []
    else
      var tail := es[1..];
      var rest := InChannel(tail, channelId);
      assert AllInChannel(es, channelId) ==> AllInChannel(tail, channelId) by {
        if AllInChannel(es, channelId) {
          forall i | 0 <= i < |tail| ensures tail[i].channelId == Some(channelId) {
            assert tail[i] == es[i + 1];
          }
        }
      }
      if es[0].channelId == Some(channelId) then
        var r := [es[0]] + rest;
        assert AllInChannel(r, channelId) by {
          forall i | 0 <= i < |r| ensures r[i].channelId == Some(channelId) {
            if i > 0 { assert r[i] == rest[i - 1]; }
          }
        }
        assert AllInChannel(es, channelId) ==> r == es by {
          if AllInChannel(es, channelId) { assert es == [es[0]] + tail; }
        }
        r
      else
        assert rest == [] ==> forall i :: 0 <= i < |es| ==> es[i].channelId != Some(channelId) by {
          if rest == [] {
            forall i | 0 <= i < |es| ensures es[i].channelId != Some(channelId) {
              if i > 0 { assert es[i] == tail[i - 1]; }
            }
          }
        }
        assert rest != [] ==> exists i :: 0 <= i < |es| && es[i].channelId == Some(channelId) by {
          if rest != [] {
            var j :| 0 <= j < |tail| && tail[j].channelId == Some(channelId);
            assert es[j + 1] == tail[j];
          }
        }
        rest
  }

  /** Every entry the filter keeps is an entry of the input. */
  lemma {:induction false} InChannelFrom(es: seq<Typing.TypingEntry>, channelId: string)
    ensures forall i :: 0 <= i < |InChannel(es, channelId)| ==> InChannel(es, channelId)[i] in es
    decreases |es|
  {
    if es != [] {
      var tail := es[1..];
      InChannelFrom(tail, channelId);
      var rest := InChannel(tail, channelId);
      var r := InChannel(es, channelId);
      forall i | 0 <= i < |r| ensures r[i] in es {
        var x := if es[0].channelId == Some(channelId) && i == 0 then es[0]
                 else rest[if es[0].channelId == Some(channelId) then i - 1 else i];
        assert r[i] == x;
        if x != es[0] {
          var j :| 0 <= j < |tail| && tail[j] == x;
          assert es[j + 1] == x;
        }
      }
    }
  }

  /** Filtering a concatenation filters each part, in order: on any list the
      entries kept stay in list order. */
  lemma {:induction false} InChannelAppend(a: seq<Typing.TypingEntry>, b: seq<Typing.TypingEntry>, channelId: string)
    ensures InChannel(a + b, channelId) == InChannel(a, channelId) + InChannel(b, channelId)
    decreases |a|
  {
    if a == [] {
      assert a + b == b;
    } else {
      var ab := a + b;
      assert ab[0] == a[0] && ab[1..] == a[1..] + b;
      InChannelAppend(a[1..], b, channelId);
      if a[0].channelId == Some(channelId) {
        calc {
          InChannel(ab, channelId);
          [a[0]] + InChannel(a[1..] + b, channelId);
          [a[0]] + (InChannel(a[1..], channelId) + InChannel(b, channelId));
          ([a[0]] + InChannel(a[1..], channelId)) + InChannel(b, channelId);
        }
      } else {
        assert InChannel(ab, channelId) == InChannel(a[1..] + b, channelId);
      }
    }
  }

  /** `.map(u => member?.name || 'Someone')`: one member name per entry. */
  function NamesOf(es: seq<Typing.TypingEntry>, members: seq<Member>): (r: seq<string>)
    ensures |r| == |es|
    ensures forall i :: 0 <= i < |es| ==> r[i] == MemberName(members, es[i].userId)
    decreases |es|
  {
    if es == [] then []
    else
      var tail := es[1..];
      var rest := NamesOf(tail, members);
      var r := [MemberName(members, es[0].userId)] + rest;
      assert forall i :: 0 <= i < |es| ==> r[i] == MemberName(members, es[i].userId) by {
        forall i | 0 <= i < |es| ensures r[i] == MemberName(members, es[i].userId) {
          if i > 0 { assert r[i] == rest[i - 1] && es[i] == tail[i - 1]; }
        }
      }
      r
  }

  /** `typingUsers.filter(u => u.channelId === channel._id).map(...)`: the names
      of the entries for `channelId`, in list order. */
  function TypingNames(es: seq<Typing.TypingEntry>, channelId: string, members: seq<Member>): (r: seq<string>)
    ensures |r| <= |es|
    ensures AllInChannel(es, channelId) ==>
      |r| == |es| && forall i :: 0 <= i < |es| ==> r[i] == MemberName(members, es[i].userId)
    ensures r == [] <==> forall i :: 0 <= i < |es| ==> es[i].channelId != Some(channelId)
  {
    NamesOf(InChannel(es, channelId), members)
  }

  /** The map of a concatenation is the map of each part, in order. */
  lemma NamesOfAppend(a: seq<Typing.TypingEntry>, b: seq<Typing.TypingEntry>, members: seq<Member>)
    ensures NamesOf(a + b, members) == NamesOf(a, members) + NamesOf(b, members)
  {
    var l := NamesOf(a + b, members);
    var r := NamesOf(a, members) + NamesOf(b, members);
    forall i | 0 <= i < |l| ensures l[i] == r[i] {
      if i < |a| { assert (a + b)[i] == a[i]; } else { assert (a + b)[i] == b[i - |a|]; }
    }
  }

  /** On any list, mixed channels included, the typing names of a
      concatenation are those of each part, in order. */
  lemma TypingNamesAppend(a: seq<Typing.TypingEntry>, b: seq<Typing.TypingEntry>, channelId: string, members: seq<Member>)
    ensures TypingNames(a + b, channelId, members)
         == TypingNames(a, channelId, members) + TypingNames(b, channelId, members)
  {
    InChannelAppend(a, b, channelId);
    NamesOfAppend(InChannel(a, channelId), InChannel(b, channelId), members);
  }

  /** `names.join(sep)`. */
  function Join(names: seq<string>, sep: string): (r: string)
    ensures names == [] ==> r == ""
    ensures |names| == 1 ==> r == names[0]
    ensures names != [] ==> names[0] <= r
    decreases |names|
  {
    if names == [] then ""
    else if |names| == 1 then names[0]
    else names[0] + sep + Join(names[1..], sep)
  }

  /** The joined text splits at any inner position into the two parts joined,
      with one separator between: every name occurs, in list order, with the
      separator between each two. */
  lemma {:induction false} JoinSplit(names: seq<string>, k: nat, sep: string)
    requires 1 <= k < |names|
    ensures Join(names, sep) == Join(names[..k], sep) + sep + Join(names[k..], sep)
    decreases k
  {
    if k > 1 {
      JoinSplit(names[1..], k - 1, sep);
      assert names[..k][1..] == names[1..][..k - 1];
      assert names[1..][k - 1..] == names[k..];
      assert names[..k][0] == names[0];
    }
  }

  /** `getTypingIndicator`: nothing while nobody is typing in the channel;
      otherwise the names joined with ", " and "is" for one name, "are" for
      several. */
  function TypingIndicator(es: seq<Typing.TypingEntry>, channelId: string, members: seq<Member>): (r: Option<string>)
    ensures r.None? <==> forall i :: 0 <= i < |es| ==> es[i].channelId != Some(channelId)
    ensures r.Some? ==> var names := TypingNames(es, channelId, members);
      r.value == Join(names, ", ") + (if |names| == 1 then " is typing..." else " are typing...")
  {
    if es == [] then None
    else
      var names := TypingNames(es, channelId, members);
      if names == [] then None
      else Some(Join(names, ", ") + (if |names| == 1 then " is typing..." else " are typing..."))
  }

  /** With every entry in this channel, the line shows exactly when someone is
      typing, and one typer is named by their member name. */
  lemma IndicatorForOneTyper(es: seq<Typing.TypingEntry>, channelId: string, members: seq<Member>)
    requires AllInChannel(es, channelId)
    ensures TypingIndicator(es, channelId, members).None? <==> es == []
    ensures |es| == 1 ==>
      TypingIndicator(es, channelId, members) == Some(MemberName(members, es[0].userId) + " is typing...")
    ensures |es| > 1 ==>
      (TypingIndicator(es, channelId, members).Some? &&
       MemberName(members, es[0].userId) <= TypingIndicator(es, channelId, members).value)
  {
    if es != [] {
      var names := TypingNames(es, channelId, members);
      assert |names| == |es| && names[0] == MemberName(members, es[0].userId);
      if |es| == 1 {
        assert Join(names, ", ") == names[0];
      }
    }
  }

  /** Several typers in this channel are all named, in list order, with "are". */
  lemma IndicatorForSeveralTypers(es: seq<Typing.TypingEntry>, channelId: string, members: seq<Member>)
    requires |es| > 1 && AllInChannel(es, channelId)
    ensures TypingIndicator(es, channelId, members)
         == Some(Join(TypingNames(es, channelId, members), ", ") + " are typing...")
  {
    var names := TypingNames(es, channelId, members);
    assert |names| == |es|;
    var joined := Join(names, ", ");
    assert TypingIndicator(es, channelId, members) == Some(joined + " are typing...");
  }

  /** Two typers in this channel are named in list order, joined by ", ",
      with "are". */
  lemma IndicatorForTwoTypers(es: seq<Typing.TypingEntry>, channelId: string, members: seq<Member>)
    requires |es| == 2 && AllInChannel(es, channelId)
    ensures TypingIndicator(es, channelId, members)
         == Some(MemberName(members, es[0].userId) + ", " + MemberName(members, es[1].userId) + " are typing...")
  {
    assert InChannel(es, channelId) == es;
    var names := TypingNames(es, channelId, members);
    assert names == NamesOf(es, members);
    assert names == [MemberName(members, es[0].userId), MemberName(members, es[1].userId)];
    assert names[1..] == [names[1]];
    assert Join(names, ", ") == names[0] + ", " + names[1];
    assert Join(names, ", ") + " are typing..." == names[0] + ", " + names[1] + " are typing...";
  }

  /** The handlers this view registers, each once and in this order. */
  function ChannelRegistrations(owner: nat): seq<Registration>
  {
    [Registration(ReceiveChannelMessage, Callback(handleNewChannelMessage, owner)),
     Registration(ChannelTypingStart, Callback(handleChannelTyping, owner)),
     Registration(AckSendChannelMessage, Callback(handleChannelMessageAck, owner))]
  }

  /** Setting up and then cleaning up restores the transport's handlers exactly,
      when none of the view's handlers were registered before. */
  lemma SetupThenCleanupRestores(hs: seq<Registration>, owner: nat)
    requires forall r :: r in ChannelRegistrations(owner) ==> r !in hs
    ensures RemoveEach(hs + ChannelRegistrations(owner), ChannelRegistrations(owner)) == hs
  {
    var regs := ChannelRegistrations(owner);
    RemoveEachBehind(hs, regs, regs);
    RemoveEachPrefix(regs, [], []);
    assert regs + [] == regs;
    assert hs + [] == hs;
  }

  class ChannelChat {
    const svc: SocketService
    const me: UserId
    const channelId: string
    const workspaceId: string
    /** Identity of this view's handler functions. */
    const owner: nat
    /** `channelMembers`: the channel's member list, or none when it has none. */
    const members: seq<Member>

    var messages: seq<Message>
    /** `processedMessageIds`. */
    var processed: set<MessageId>
    var error: string
    var typing: Typing.TypingState
    var newMessage: string
    /** The view's connection flag, copied from the service at setup. */
    var isConnected: bool
    /** `typingTimeoutRef.current`: the last stop timer armed; never reset. */
    var typingRef: Option<nat>
    /** Stop timers scheduled and neither fired nor cleared. */
    var stopTimers: set<nat>
    var nextTimer: nat
    /** `listenersRegisteredRef.current`. */
    var registered: bool
    /** 500 ms setups scheduled and not yet run. */
    var deferredSetups: nat

    function Timeline(): TimelineState
      reads this`messages, this`processed
    {
      TimelineState(messages, processed)
    }

    /** Every timeline id is processed; typing entries are one per user, each
        has a removal pending and each belongs to this channel; at most one stop
        timer is pending, the one `typingRef` names. */
    predicate Valid()
      reads this`messages, this`processed, this`typing, this`stopTimers, this`typingRef, this`nextTimer
    {
      Covered(Timeline()) && Typing.Valid(typing) && AllInChannel(typing.entries, channelId)
      && stopTimers <= IntervalSet(typingRef)
      && (typingRef.Some? ==> typingRef.value < nextTimer)
      && 0 < nextTimer
    }

    constructor(svc: SocketService, me: UserId, channelId: string, workspaceId: string, owner: nat,
                channelMembers: Option<seq<Member>>)
      ensures Valid()
      ensures this.svc == svc && this.me == me && this.channelId == channelId
      ensures this.workspaceId == workspaceId && this.owner == owner
      ensures members == channelMembers.GetOr([])
      ensures messages == [] && processed == {} && error == "" && newMessage == ""
      ensures typing == Typing.NoTyping && !isConnected && typingRef.None? && stopTimers == {}
      ensures !registered && deferredSetups == 0
    {
      this.svc := svc;
      this.me := me;
      this.channelId := channelId;
      this.workspaceId := workspaceId;
      this.owner := owner;
      members := channelMembers.GetOr([]);
      messages := [];
      processed := {};
      error := "";
      typing := Typing.NoTyping;
      newMessage := "";
      isConnected := false;
      typingRef := None;
      stopTimers := {};
      nextTimer := 1;
      registered := false;
      deferredSetups := 0;
    }

    /** `loadMessages`: request page 1 of 50 of the channel's history; `reply`
        is the outcome. A successful reply with a `result` replaces the timeline
        with its messages (none without a `messages` list) and processes exactly
        their ids. A successful reply without a `result` throws while logging,
        before anything changes, and shows the default error. A failure reply
        shows the server's message or the default. Failures keep the timeline. */
    method LoadMessages(reply: HistoryReply) returns (request: HistoryRequest)
      modifies this`messages, this`processed, this`error
      requires Valid()
      ensures Valid()
      ensures request == ChannelHistory(channelId, workspaceId, FirstPage, PageSize)
      ensures reply.Answered? && reply.success && !reply.result.NoResult? ==>
        Timeline() == Loaded(PageItems(reply.result)) && error == ""
      ensures reply.Answered? && reply.success && reply.result.NoResult? ==>
        Timeline() == old(Timeline()) && error == LoadFailed
      ensures reply.Answered? && !reply.success ==>
        Timeline() == old(Timeline()) && error == (if reply.message != "" then reply.message else LoadFailed)
      ensures reply.Threw? ==> Timeline() == old(Timeline()) && error == LoadFailed
    {
      error := "";
      request := ChannelHistory(channelId, workspaceId, FirstPage, PageSize);
      match reply {
        case Threw =>
          error := LoadFailed;
        case Answered(success, result, message) =>
          if !success {
            error := if message != "" then message else LoadFailed;
          } else if result.NoResult? {
            error := LoadFailed;
          } else {
            var items := PageItems(result);
            processed := {};
            var i := 0;
            while i < |items|
              invariant 0 <= i <= |items|
              invariant error == "" && messages == old(messages)
              invariant processed == IdSet(items[..i])
            {
              IdSetSnoc(items[..i], items[i]);
              assert items[..i + 1] == items[..i] + [items[i]];
              processed := processed + {items[i].id};
              i := i + 1;
            }
            assert items[..i] == items;
            messages := items;
          }
      }
    }

    /** `handleNewChannelMessage`: the processed-set check, the own-message
        check, then the timeline check; only a message passing all three is
        appended and marked processed. */
    method HandleNewMessage(d: Delivery)
      modifies this`messages, this`processed
      requires Valid()
      ensures Valid()
      ensures Timeline() == ChannelPushStep(old(Timeline()), me, d)
    {
      if !(d.success && d.message.Some?) {
        return;
      }
      var m := d.message.value;
      if m.id in processed {
        return;
      }
      if m.senderId != Some(me) {
        if !Holds(messages, m.id) {
          processed := processed + {m.id};
          messages := messages + [m];
        }
      }
    }

    /** `handleChannelMessageAck`: the two duplicate checks. */
    method HandleMessageAck(d: Delivery)
      modifies this`messages, this`processed
      requires Valid()
      ensures Valid()
      ensures Timeline() == AckStep(old(Timeline()), d)
    {
      if !(d.success && d.message.Some?) {
        return;
      }
      var m := d.message.value;
      if m.id in processed {
        return;
      }
      if !Holds(messages, m.id) {
        processed := processed + {m.id};
        messages := messages + [m];
      }
    }

    /** `handleChannelTyping`. */
    method HandleTyping(n: ChannelTypingNotice)
      modifies this`typing
      requires Valid()
      ensures Valid()
      ensures typing == ChannelTypingStep(old(typing), channelId, n)
    {
      typing := ChannelTypingStep(typing, channelId, n);
    }

    /** The oldest pending 3000 ms typing removal fires. */
    method FireTypingExpiry()
      modifies this`typing
      requires Valid() && typing.expiries != []
      ensures Valid()
      ensures typing == Typing.ExpireOldest(old(typing))
    {
      ExpireKeepsChannel(typing, channelId);
      typing := Typing.ExpireOldest(typing);
    }

    /** The typing line under the list. */
    function TypingLine(): (r: Option<string>)
      reads this
      ensures Valid() ==> (r.None? <==> typing.entries == [])
      ensures Valid() && |typing.entries| == 1 ==>
        r == Some(MemberName(members, typing.entries[0].userId) + " is typing...")
      ensures Valid() && |typing.entries| > 1 ==>
        r == Some(Join(TypingNames(typing.entries, channelId, members), ", ") + " are typing...")
    {
      if Valid() then
        IndicatorForOneTyper(typing.entries, channelId, members);
        if |typing.entries| > 1 then
          IndicatorForSeveralTypers(typing.entries, channelId, members);
          TypingIndicator(typing.entries, channelId, members)
        else TypingIndicator(typing.entries, channelId, members)
      else TypingIndicator(typing.entries, channelId, members)
    }

    /** `handleSendMessage`. Nothing happens when the trimmed input is empty or
        the view's flag says disconnected. Otherwise the trimmed text is sent
        to the channel and the input and the error are cleared. */
    method HandleSendMessage()
      modifies this`newMessage, this`error, svc`outbox
      ensures Blank(old(newMessage)) || !isConnected ==>
        newMessage == old(newMessage) && error == old(error) && svc.outbox == old(svc.outbox)
      ensures !Blank(old(newMessage)) && isConnected ==>
        newMessage == "" && error == "" &&
        svc.outbox == old(svc.outbox)
          + Emitted(svc.socket, Emit(SendToChannel, ChannelPost(me, channelId, workspaceId, Trim(old(newMessage)))))
    {
      var text := Trim(newMessage);
      if text == [] || !isConnected {
        return;
      }
      svc.SendChannelMessage(ChannelPost(me, channelId, workspaceId, text));
      newMessage := "";
      error := "";
    }

    /** `handleKeyPress`: Enter without Shift sends; any other key does
        nothing here. */
    method HandleKeyPress(key: string, shift: bool)
      modifies this`newMessage, this`error, svc`outbox
      ensures key != "Enter" || shift ==>
        newMessage == old(newMessage) && error == old(error) && svc.outbox == old(svc.outbox)
      ensures key == "Enter" && !shift && (Blank(old(newMessage)) || !isConnected) ==>
        newMessage == old(newMessage) && error == old(error) && svc.outbox == old(svc.outbox)
      ensures key == "Enter" && !shift && !Blank(old(newMessage)) && isConnected ==>
        newMessage == "" && error == "" &&
        svc.outbox == old(svc.outbox)
          + Emitted(svc.socket, Emit(SendToChannel, ChannelPost(me, channelId, workspaceId, Trim(old(newMessage)))))
    {
      if key == "Enter" && !shift {
        HandleSendMessage();
      }
    }

    /** `handleInputChange`. Text with a non-space character, while the view
        is connected, emits `typing-to-channel` and re-arms the single stop
        timer. A blank input only updates the input: no stop is sent. */
    method HandleInputChange(value: string)
      modifies this`newMessage, this`stopTimers, this`typingRef, this`nextTimer, svc`outbox
      requires Valid()
      ensures Valid()
      ensures newMessage == value
      ensures !Blank(value) && isConnected ==>
        svc.outbox == old(svc.outbox)
          + Emitted(svc.socket, Emit(ChannelTypingStart, ChannelTypingSignal(channelId, workspaceId, me))) &&
        typingRef == Some(old(nextTimer)) && stopTimers == {old(nextTimer)}
      ensures Blank(value) || !isConnected ==>
        svc.outbox == old(svc.outbox) && typingRef == old(typingRef) && stopTimers == old(stopTimers)
    {
      var typed := Trim(value) != [];
      if typed && isConnected {
        svc.StartTypingInChannel(channelId, workspaceId, me);
        var h := nextTimer;
        nextTimer := nextTimer + 1;
        stopTimers := {h};
        typingRef := Some(h);
      }
      newMessage := value;
    }

    /** A pending stop timer fires: `stop-typing-to-channel`. */
    method FireStopTimer(h: nat)
      modifies this`stopTimers, svc`outbox
      requires Valid() && h in stopTimers
      ensures Valid()
      ensures stopTimers == {} && typingRef == Some(h)
      ensures svc.outbox == old(svc.outbox)
        + Emitted(svc.socket, Emit(ChannelTypingStop, ChannelTypingSignal(channelId, workspaceId, me)))
    {
      svc.StopTypingInChannel(channelId, workspaceId, me);
      stopTimers := stopTimers - {h};
    }

    /** `cleanup`: clear the stop timer, remove the three handlers and reset the
        registration flag. */
    method Cleanup()
      modifies this`stopTimers, this`registered, svc`socket
      requires Valid()
      ensures Valid()
      ensures !registered && stopTimers == {}
      ensures svc.socket == Removed(old(svc.socket), ChannelRegistrations(owner))
    {
      stopTimers := {};
      ghost var t := svc.socket;
      svc.Off(ReceiveChannelMessage, Callback(handleNewChannelMessage, owner));
      svc.Off(ChannelTypingStart, Callback(handleChannelTyping, owner));
      RemovedTwice(t, [Registration(ReceiveChannelMessage, Callback(handleNewChannelMessage, owner))],
                   [Registration(ChannelTypingStart, Callback(handleChannelTyping, owner))]);
      ghost var acc := [Registration(ReceiveChannelMessage, Callback(handleNewChannelMessage, owner))] +
                       [Registration(ChannelTypingStart, Callback(handleChannelTyping, owner))];
      svc.Off(AckSendChannelMessage, Callback(handleChannelMessageAck, owner));
      RemovedTwice(t, acc, [Registration(AckSendChannelMessage, Callback(handleChannelMessageAck, owner))]);
      assert acc + [Registration(AckSendChannelMessage, Callback(handleChannelMessageAck, owner))]
          == ChannelRegistrations(owner);
      registered := false;
    }

    /** `setupSocketListeners`. Skipped while the flag is set. Otherwise: join
        the channel room, register the three handlers, set the flag and copy the
        service's connection status. */
    method Setup()
      modifies this`registered, this`isConnected, svc`socket, svc`outbox
      requires Valid()
      ensures Valid()
      ensures old(registered) ==>
        registered && isConnected == old(isConnected) && svc.socket == old(svc.socket) && svc.outbox == old(svc.outbox)
      ensures !old(registered) ==> registered && isConnected == svc.IsSocketConnected()
      ensures !old(registered) ==> svc.socket == Added(old(svc.socket), ChannelRegistrations(owner))
      ensures !old(registered) ==>
        svc.outbox == old(svc.outbox) + Emitted(old(svc.socket), Emit(JoinChannelRoom, ChannelJoin(channelId, workspaceId)))
    {
      if registered {
        return;
      }
      svc.JoinChannel(channelId, workspaceId);
      ghost var t := svc.socket;
      svc.OnChannelMessage(Callback(handleNewChannelMessage, owner));
      svc.OnChannelTyping(Callback(handleChannelTyping, owner));
      AddedTwice(t, [Registration(ReceiveChannelMessage, Callback(handleNewChannelMessage, owner))],
                 [Registration(ChannelTypingStart, Callback(handleChannelTyping, owner))]);
      ghost var acc := [Registration(ReceiveChannelMessage, Callback(handleNewChannelMessage, owner))] +
                       [Registration(ChannelTypingStart, Callback(handleChannelTyping, owner))];
      svc.OnAckSendChannelMessage(Callback(handleChannelMessageAck, owner));
      AddedTwice(t, acc, [Registration(AckSendChannelMessage, Callback(handleChannelMessageAck, owner))]);
      assert acc + [Registration(AckSendChannelMessage, Callback(handleChannelMessageAck, owner))]
          == ChannelRegistrations(owner);
      registered := true;
      isConnected := svc.IsSocketConnected();
    }

    /** `initializeSocket`: clean up, then set up at once when the service is
        connected, or defer the setup by 500 ms. */
    method Initialize()
      modifies this`stopTimers, this`registered, this`isConnected, this`deferredSetups, svc`socket, svc`outbox
      requires Valid()
      ensures Valid()
      ensures old(svc.IsSocketConnected()) ==> registered && deferredSetups == old(deferredSetups)
      ensures old(svc.IsSocketConnected()) ==>
        svc.socket == Added(Removed(old(svc.socket), ChannelRegistrations(owner)), ChannelRegistrations(owner))
      ensures !old(svc.IsSocketConnected()) ==> !registered && deferredSetups == old(deferredSetups) + 1
      ensures !old(svc.IsSocketConnected()) ==>
        svc.outbox == old(svc.outbox) && svc.socket == Removed(old(svc.socket), ChannelRegistrations(owner))
      ensures old(svc.IsSocketConnected()) ==>
        svc.outbox == old(svc.outbox) + Emitted(old(svc.socket), Emit(JoinChannelRoom, ChannelJoin(channelId, workspaceId)))
    {
      Cleanup();
      if svc.IsSocketConnected() {
        Setup();
      } else {
        deferredSetups := deferredSetups + 1;
      }
    }

    /** A deferred setup runs; nothing cancels it, not even unmounting. */
    method FireDeferredSetup()
      modifies this`registered, this`isConnected, this`deferredSetups, svc`socket, svc`outbox
      requires Valid() && deferredSetups > 0
      ensures Valid()
      ensures registered && deferredSetups == old(deferredSetups) - 1
      ensures old(registered) ==> svc.socket == old(svc.socket) && svc.outbox == old(svc.outbox)
      ensures !old(registered) ==> svc.socket == Added(old(svc.socket), ChannelRegistrations(owner))
      ensures !old(registered) ==>
        svc.outbox == old(svc.outbox) + Emitted(old(svc.socket), Emit(JoinChannelRoom, ChannelJoin(channelId, workspaceId)))
    {
      deferredSetups := deferredSetups - 1;
      Setup();
    }
  }
}

=== FILE: chat_interface.dfy ===
/** The one-to-one chat view (`ChatInterface`): its timeline and processed-id
    set, its presence list, inbound typing indicators, the outbound typing timer,
    the send guard and its socket handler registration.

    The handlers the view registers on the socket are the closures of the render
    in which the view set itself up, so they see the chat selected at that
    moment (`listenerChat`), not a chat selected later. Each handler runs as one
    atomic step. Timer ids come from the view's own counter. */
module ChatInterface {
  import opened Common
  import opened Timeline
  import Typing
  import Presence
  import MessageList
  import opened Socket

  /** `selectedChat`: a workspace user (`type: 'user'`) or a channel. */
  datatype ChatTarget = WithUser(userId: UserId, name: string) | InChannel(channelId: string, name: string)

  /** The payload of `typing` and `stop-typing`: `{userId, receiverId}`. */
  datatype TypingNotice = TypingNotice(userId: UserId, receiverId: Option<UserId>)

  /** Default page and page size of a history request. */
  const FirstPage := 1
  const PageSize := 50

  /** A push concerns the open conversation when it comes from or goes to the
      selected user. */
  predicate ConcernsPeer(m: Message, chat: Option<ChatTarget>)
  {
    chat.Some? && chat.value.WithUser? &&
    (m.senderId == Some(chat.value.userId) || m.receiverId == Some(chat.value.userId))
  }

  /** `handleNewOneToOneMessage` on the timeline: a successful push with a
      message, while a user chat is selected, and from or to that user, goes
      through the shared duplicate check; anything else is ignored. */
  function PushStep(t: TimelineState, chat: Option<ChatTarget>, d: Delivery): (r: TimelineState)
    ensures !d.success || d.message.None? || !ConcernsPeer(d.message.value, chat) ==> r == t
    ensures d.success && d.message.Some? && ConcernsPeer(d.message.value, chat) ==> r == Admit(t, d.message.value)
    ensures Covered(t) ==> Covered(r)
    ensures DistinctIds(t.messages) ==> DistinctIds(r.messages)
  {
    if d.success && d.message.Some? && ConcernsPeer(d.message.value, chat) then Admit(t, d.message.value) else t
  }

  /** The user's own message, pushed back addressed to the selected user,
      enters the timeline through the push handler, without its
      acknowledgement. */
  lemma OwnPushAdmitted(t: TimelineState, me: UserId, peer: UserId, name: string, m: Message)
    requires Covered(t) && m.id !in t.seen
    requires m.senderId == Some(me) && m.receiverId == Some(peer)
    ensures PushStep(t, Some(WithUser(peer, name)), Delivery(true, Some(m))).messages == t.messages + [m]
  {
    SeenCheckSubsumesTimelineCheck(t, m);
  }

  /** The same message delivered as a push and then acknowledged adds exactly one
      entry (when its id is new). */
  lemma PushThenAckAddsOnce(t: TimelineState, chat: Option<ChatTarget>, m: Message, a: Message)
    requires Covered(t) && m.id !in t.seen && a.id == m.id
    requires ConcernsPeer(m, chat)
    ensures AckStep(PushStep(t, chat, Delivery(true, Some(m))), Delivery(true, Some(a))).messages
         == t.messages + [m]
  {
    SameIdTwiceAddsOnce(t, m, a);
  }

  /** The acknowledgement arriving first and the push second also adds exactly
      one entry, the acknowledged one. */
  lemma AckThenPushAddsOnce(t: TimelineState, chat: Option<ChatTarget>, a: Message, m: Message)
    requires Covered(t) && a.id !in t.seen && a.id == m.id
    ensures PushStep(AckStep(t, Delivery(true, Some(a))), chat, Delivery(true, Some(m))).messages
         == t.messages + [a]
  {
    SameIdTwiceAddsOnce(t, a, m);
  }

  /** A push about another conversation never changes the timeline, even when
      its id is new. */
  lemma OtherConversationIgnored(t: TimelineState, peer: UserId, name: string, m: Message)
    requires m.senderId != Some(peer) && m.receiverId != Some(peer)
    ensures PushStep(t, Some(WithUser(peer, name)), Delivery(true, Some(m))) == t
  {
  }

  /** A typing notice concerns the open conversation when it is from another
      user and that user, or its receiver, is the selected user. */
  predicate TypingConcerns(n: TypingNotice, me: UserId, chat: Option<ChatTarget>)
  {
    n.userId != me && chat.Some? && chat.value.WithUser? &&
    (chat.value.userId == n.userId || Some(chat.value.userId) == n.receiverId)
  }

  /** `handleTyping`: a relevant notice replaces the sender's entry with one
      stamped `now` and schedules its removal. */
  function TypingStep(s: Typing.TypingState, me: UserId, chat: Option<ChatTarget>, n: TypingNotice, now: int): (r: Typing.TypingState)
    ensures !TypingConcerns(n, me, chat) ==> r == s
    ensures TypingConcerns(n, me, chat) ==>
      Typing.EntriesOf(r.entries, n.userId) == [Typing.TypingEntry(n.userId, None, Some(now))] &&
      r.entries[|r.entries| - 1].userId == n.userId &&
      r.expiries == s.expiries + [n.userId]
    ensures forall v :: v != n.userId ==> Typing.EntriesOf(r.entries, v) == Typing.EntriesOf(s.entries, v)
    ensures Typing.Valid(s) ==> Typing.Valid(r)
  {
    if TypingConcerns(n, me, chat) then
      var e := Typing.TypingEntry(n.userId, None, Some(now));
      forall v | v != n.userId ensures Typing.EntriesOf(Typing.Start(s, e).entries, v) == Typing.EntriesOf(s.entries, v) {
        Typing.StartedShape(s.entries, e, v);
      }
      Typing.StartedShape(s.entries, e, n.userId);
      Typing.Start(s, e)
    else s
  }

  /** `handleStopTyping`: a relevant notice removes the sender's entry at once;
      its pending removal stays scheduled. */
  function StopTypingStep(s: Typing.TypingState, me: UserId, chat: Option<ChatTarget>, n: TypingNotice): (r: Typing.TypingState)
    ensures !TypingConcerns(n, me, chat) ==> r == s
    ensures TypingConcerns(n, me, chat) ==> Typing.EntriesOf(r.entries, n.userId) == []
    ensures forall v :: v != n.userId ==> Typing.EntriesOf(r.entries, v) == Typing.EntriesOf(s.entries, v)
    ensures r.expiries == s.expiries
    ensures Typing.Valid(s) ==> Typing.Valid(r)
  {
    if TypingConcerns(n, me, chat) then
      forall v ensures Typing.EntriesOf(Typing.Stop(s, n.userId).entries, v)
                    == if v == n.userId then [] else Typing.EntriesOf(s.entries, v) {
        Typing.WithoutUserKeepsOthers(s.entries, n.userId, v);
      }
      Typing.Stop(s, n.userId)
    else s
  }

  /** The current user's own typing notices never show. */
  lemma OwnTypingIgnored(s: Typing.TypingState, me: UserId, chat: Option<ChatTarget>, receiver: Option<UserId>, now: int)
    ensures TypingStep(s, me, chat, TypingNotice(me, receiver), now) == s
    ensures StopTypingStep(s, me, chat, TypingNotice(me, receiver)) == s
  {
  }

  /** The message and typing callbacks, registered and removed as they are. */
  function MessageCallbacks(owner: nat): seq<Registration>
  {
    [Registration(ReceiveMessage, Callback(handleNewOneToOneMessage, owner)),
     Registration(TypingStart, Callback(handleTyping, owner)),
     Registration(TypingStop, Callback(handleStopTyping, owner))]
  }

  /** The closures `onOnlineUsers`, `onUserOnline` and `onUserOffline` register
      around the view's presence callbacks, minted from `w`. */
  function PresenceWrappers(owner: nat, w: nat): seq<Registration>
  {
    [Registration(OnlineUsers, Wrapper(Callback(handleOnlineUsers, owner), w)),
     Registration(UserOnline, Wrapper(Callback(handleUserOnline, owner), w + 1)),
     Registration(UserOffline, Wrapper(Callback(handleUserOffline, owner), w + 2))]
  }

  /** The presence callbacks themselves, which `cleanup` passes to `off*`. */
  function RawPresence(owner: nat): seq<Registration>
  {
    [Registration(OnlineUsers, Callback(handleOnlineUsers, owner)),
     Registration(UserOnline, Callback(handleUserOnline, owner)),
     Registration(UserOffline, Callback(handleUserOffline, owner))]
  }

  function AckCallback(owner: nat): Registration
  {
    Registration(AckSendMessage, Callback(handleMessageAck, owner))
  }

  /** The inline `socket-ready` closure number `k`. */
  function ReadyClosure(owner: nat, k: nat): Registration
  {
    Registration(SocketReady, Inline(requestOnlineUsers, owner, k))
  }

  /** The registrations `setupSocketListeners` makes, in order. */
  function SetupRegistrations(owner: nat, w: nat, k: nat): seq<Registration>
  {
    MessageCallbacks(owner) + PresenceWrappers(owner, w) + [AckCallback(owner), ReadyClosure(owner, k)]
  }

  /** The registrations `cleanup` asks to remove, in order: every handler by
      its raw callback. */
  function CleanupRegistrations(owner: nat): seq<Registration>
  {
    MessageCallbacks(owner) + RawPresence(owner) + [AckCallback(owner)]
  }

  /** What one setup followed by one cleanup leaves behind. */
  function Leaked(owner: nat, w: nat, k: nat): seq<Registration>
  {
    PresenceWrappers(owner, w) + [ReadyClosure(owner, k)]
  }

  /** None of the view's own callbacks is registered yet. */
  predicate NoneOfOwn(hs: seq<Registration>, owner: nat)
  {
    forall r :: r in CleanupRegistrations(owner) ==> r !in hs
  }

  /** The cleanup list applied to the setup list alone: the message, typing
      and acknowledgement callbacks go, the raw presence callbacks find
      nothing. */
  lemma CleanupOfSetup(owner: nat, w: nat, k: nat)
    ensures RemoveEach(SetupRegistrations(owner, w, k), CleanupRegistrations(owner)) == Leaked(owner, w, k)
  {
    var msgs := MessageCallbacks(owner);
    var wrappers := PresenceWrappers(owner, w);
    var raw := RawPresence(owner);
    var ack := AckCallback(owner);
    var tail := wrappers + [ack, ReadyClosure(owner, k)];
    assert SetupRegistrations(owner, w, k) == msgs + tail;
    assert CleanupRegistrations(owner) == msgs + (raw + [ack]);
    RemoveEachPrefix(msgs, tail, raw + [ack]);
    RemoveEachAppend(tail, raw, [ack]);
    OffMissing(tail, raw);
    assert RemoveEach(tail, [ack]) == RemoveFirst(tail, ack) by {
      assert [ack][1..] == [];
    }
    RemoveFirstAppend(wrappers, [ack, ReadyClosure(owner, k)], ack);
    assert [ack, ReadyClosure(owner, k)][1..] == [ReadyClosure(owner, k)];
  }

  /** Setting up and then cleaning up does not restore the transport: the three
      presence wrappers and the `socket-ready` closure stay registered, after
      whatever was there before. */
  lemma SetupThenCleanupLeaks(hs: seq<Registration>, owner: nat, w: nat, k: nat)
    requires NoneOfOwn(hs, owner)
    ensures RemoveEach(hs + SetupRegistrations(owner, w, k), CleanupRegistrations(owner))
         == hs + Leaked(owner, w, k)
  {
    RemoveEachBehind(hs, SetupRegistrations(owner, w, k), CleanupRegistrations(owner));
    CleanupOfSetup(owner, w, k);
  }

  class DirectChat {
    const svc: SocketService
    const me: UserId
    const workspaceId: string
    /** Identity of this view's handler functions. */
    const owner: nat
    /** The chat selected when the handlers were created (`initialChat`). */
    const listenerChat: Option<ChatTarget>

    var selected: Option<ChatTarget>
    var messages: seq<Message>
    var processed: set<MessageId>
    var error: string
    var typing: Typing.TypingState
    var onlineUsers: seq<Presence.PresenceEntry>
    var newMessage: string
    var isConnected: bool
    /** `typingTimeoutRef.current`: the last stop timer armed, never reset. */
    var typingRef: Option<nat>
    /** Pending outbound stop-typing timers and the peer each will name. */
    var stopTimers: map<nat, UserId>
    var nextTimer: nat
    /** `listenersRegisteredRef.current`. */
    var registered: bool
    /** Setups deferred by 500 ms and not yet run. */
    var deferredSetups: nat
    /** Serial of the next inline `socket-ready` closure. */
    var readyClosures: nat
    /** 200 ms online-user requests scheduled by the connection poll and not yet run. */
    var pendingRequests: nat

    function Timeline(): TimelineState
      reads this`messages, this`processed
    {
      TimelineState(messages, processed)
    }

    /** Every timeline id is processed; typing entries are one per user and each
        has a removal pending; at most one outbound stop timer is pending, the one
        `typingRef` names, and it exists only in a user chat. */
    predicate Valid()
      reads this`messages, this`processed, this`typing, this`stopTimers, this`typingRef, this`selected, this`nextTimer
    {
      Covered(Timeline()) && Typing.Valid(typing)
      && stopTimers.Keys <= IntervalSet(typingRef)
      && (typingRef.Some? ==> selected.Some? && selected.value.WithUser? && typingRef.value < nextTimer)
      && 0 < nextTimer
    }

    constructor(svc: SocketService, me: UserId, workspaceId: string, owner: nat, initialChat: Option<ChatTarget>)
      ensures Valid()
      ensures this.svc == svc && this.me == me && this.workspaceId == workspaceId && this.owner == owner
      ensures listenerChat == initialChat && selected == initialChat
      ensures messages == [] && processed == {} && error == "" && onlineUsers == [] && newMessage == ""
      ensures typing == Typing.NoTyping && !isConnected && typingRef.None? && stopTimers == map[]
      ensures !registered && deferredSetups == 0 && pendingRequests == 0
    {
      this.svc := svc;
      this.me := me;
      this.workspaceId := workspaceId;
      this.owner := owner;
      listenerChat := initialChat;
      selected := initialChat;
      messages := [];
      processed := {};
      error := "";
      typing := Typing.NoTyping;
      onlineUsers := [];
      newMessage := "";
      isConnected := false;
      typingRef := None;
      stopTimers := map[];
      nextTimer := 1;
      registered := false;
      deferredSetups := 0;
      readyClosures := 0;
      pendingRequests := 0;
    }

    /** `loadMessages`. Without a selected chat nothing happens; a channel chat
        only clears the error. Otherwise the history of the conversation is
        requested (page 1, 50 messages) and `reply` is the outcome: on success
        the page becomes the timeline and exactly its ids are processed; on a
        failure reply the error is the server's message, or the default when it
        has none; an exception sets the default error. Failures keep the
        timeline. */
    method LoadMessages(reply: HistoryReply) returns (request: Option<HistoryRequest>)
      modifies this`messages, this`processed, this`error
      requires Valid()
      ensures Valid()
      ensures request.Some? <==> old(selected).Some? && old(selected).value.WithUser?
      ensures request.Some? ==> request.value == OneToOneHistory(me, selected.value.userId, FirstPage, PageSize)
      ensures request.None? ==> Timeline() == old(Timeline())
      ensures request.None? ==> error == (if selected.None? then old(error) else "")
      ensures request.Some? && reply.Answered? && reply.success ==>
        Timeline() == Loaded(PageItems(reply.result)) && error == ""
      ensures request.Some? && reply.Answered? && !reply.success ==>
        Timeline() == old(Timeline()) && error == (if reply.message != "" then reply.message else LoadFailed)
      ensures request.Some? && reply.Threw? ==> Timeline() == old(Timeline()) && error == LoadFailed
    {
      if selected.None? {
        return None;
      }
      error := "";
      if !selected.value.WithUser? {
        return None;
      }
      request := Some(OneToOneHistory(me, selected.value.userId, FirstPage, PageSize));
      match reply {
        case Threw =>
          error := LoadFailed;
        case Answered(success, result, message) =>
          if success {
            var items := PageItems(result);
            processed := {};
            var i := 0;
            while i < |items|
              invariant 0 <= i <= |items|
              invariant error == "" && messages == old(messages)
              invariant processed == IdSet(items[..i])
            {
              IdSetSnoc(items[..i], items[i]);
              assert items[..i + 1] == items[..i] + [items[i]];
              processed := processed + {items[i].id};
              i := i + 1;
            }
            assert items[..i] == items;
            messages := items;
          } else {
            error := if message != "" then message else LoadFailed;
          }
      }
    }

    /** `handleNewOneToOneMessage`: the processed-set check, the peer check
        against the chat the handler captured, then the timeline check; only a
        message passing all three is appended and marked processed. */
    method HandleNewMessage(d: Delivery)
      modifies this`messages, this`processed
      requires Valid()
      ensures Valid()
      ensures Timeline() == PushStep(old(Timeline()), listenerChat, d)
    {
      if !(d.success && d.message.Some? && listenerChat.Some? && listenerChat.value.WithUser?) {
        return;
      }
      var m := d.message.value;
      if m.id in processed {
        return;
      }
      if m.senderId == Some(listenerChat.value.userId) || m.receiverId == Some(listenerChat.value.userId) {
        if !Holds(messages, m.id) {
          processed := processed + {m.id};
          messages := messages + [m];
        }
      }
    }

    /** `handleMessageAck`: the same two duplicate checks, without a peer check. */
    method HandleMessageAck(d: Delivery)
      modifies this`messages, this`processed
      requires Valid()
      ensures Valid()
      ensures Timeline() == AckStep(old(Timeline()), d)
    {
      if !(d.success && d.message.Some?) {
        return;
      }
      var m := d.message.value;
      if m.id in processed {
        return;
      }
      if !Holds(messages, m.id) {
        processed := processed + {m.id};
        messages := messages + [m];
      }
    }

    /** `handleTyping` at time `now`. */
    method HandleTyping(n: TypingNotice, now: int)
      modifies this`typing
      requires Valid()
      ensures Valid()
      ensures typing == TypingStep(old(typing), me, listenerChat, n, now)
    {
      typing := TypingStep(typing, me, listenerChat, n, now);
    }

    /** `handleStopTyping`. */
    method HandleStopTyping(n: TypingNotice)
      modifies this`typing
      requires Valid()
      ensures Valid()
      ensures typing == StopTypingStep(old(typing), me, listenerChat, n)
    {
      typing := StopTypingStep(typing, me, listenerChat, n);
    }

    /** The oldest pending 3000 ms typing removal fires. */
    method FireTypingExpiry()
      modifies this`typing
      requires Valid() && typing.expiries != []
      ensures Valid()
      ensures typing == Typing.ExpireOldest(old(typing))
    {
      typing := Typing.ExpireOldest(typing);
    }

    /** `handleOnlineUsers`; a payload without `users` counts as an empty list. */
    method HandleOnlineUsers(users: Option<seq<UserId>>)
      modifies this`onlineUsers
      ensures onlineUsers == Presence.Snapshot(old(onlineUsers), users.GetOr([]))
    {
      onlineUsers := Presence.Snapshot(onlineUsers, users.GetOr([]));
    }

    /** `handleUserOnline`. */
    method HandleUserOnline(u: UserId)
      modifies this`onlineUsers
      ensures onlineUsers == Presence.MarkOnline(old(onlineUsers), u)
    {
      onlineUsers := Presence.MarkOnline(onlineUsers, u);
    }

    /** `handleUserOffline`. */
    method HandleUserOffline(u: UserId)
      modifies this`onlineUsers
      ensures onlineUsers == Presence.MarkOffline(old(onlineUsers), u)
    {
      onlineUsers := Presence.MarkOffline(onlineUsers, u);
    }

    /** `handleUserSelect`: open a conversation with a workspace user and empty
        the timeline; the processed set is kept. */
    method HandleUserSelect(userId: UserId, name: string)
      modifies this`selected, this`messages
      requires Valid()
      ensures Valid()
      ensures selected == Some(WithUser(userId, name)) && messages == []
    {
      selected := Some(WithUser(userId, name));
      messages := [];
    }

    /** Clear the armed stop timer, as `clearTimeout(typingTimeoutRef.current)`
        does; the ref itself keeps its value. */
    method ClearStopTimer()
      modifies this`stopTimers
      requires Valid()
      ensures Valid()
      ensures stopTimers == map[]
    {
      if typingRef.Some? {
        stopTimers := stopTimers - {typingRef.value};
      }
    }

    /** Emit `typing` to the selected user and re-arm the single stop timer,
        remembering the peer the timer's closure captured. */
    method SignalTyping()
      modifies this`stopTimers, this`typingRef, this`nextTimer, svc`outbox
      requires Valid() && selected.Some? && selected.value.WithUser?
      ensures Valid()
      ensures svc.outbox == old(svc.outbox) + Emitted(svc.socket, Emit(TypingStart, TypingSignal(selected.value.userId, None, me)))
      ensures typingRef == Some(old(nextTimer)) && stopTimers == map[old(nextTimer) := selected.value.userId]
    {
      var peer := selected.value.userId;
      svc.StartTyping(peer, None, me);
      ClearStopTimer();
      var h := nextTimer;
      nextTimer := nextTimer + 1;
      stopTimers := map[h := peer];
      typingRef := Some(h);
    }

    /** Clear the stop timer and emit `stop-typing` to the selected user. */
    method SignalStopTyping()
      modifies this`stopTimers, svc`outbox
      requires Valid() && typingRef.Some?
      ensures Valid()
      ensures svc.outbox == old(svc.outbox) + Emitted(svc.socket, Emit(TypingStop, TypingSignal(selected.value.userId, None, me)))
      ensures stopTimers == map[]
    {
      ClearStopTimer();
      svc.StopTyping(selected.value.userId, None, me);
    }

    /** The sending half of `handleSendMessage`: stop typing if a stop timer
        was ever armed, send `text` to `peer`, clear the input and the error. */
    method SendTo(peer: UserId, text: string)
      modifies this`newMessage, this`error, this`stopTimers, svc`outbox
      requires Valid() && selected.Some? && selected.value == WithUser(peer, selected.value.name)
      ensures Valid()
      ensures newMessage == "" && error == "" && stopTimers == map[]
      ensures svc.outbox == old(svc.outbox)
        + (if typingRef.Some? then Emitted(svc.socket, Emit(TypingStop, TypingSignal(peer, None, me))) else [])
        + Emitted(svc.socket, Emit(SendDirect, DirectMessage(me, peer, workspaceId, text)))
    {
      if typingRef.Some? {
        SignalStopTyping();
      }
      svc.SendMessage(DirectMessage(me, peer, workspaceId, text));
      newMessage := "";
      error := "";
    }

    /** `handleSendMessage`. Nothing happens when the trimmed input is empty, the
        view is disconnected, no chat is selected or the chat is a channel.
        Otherwise: if a stop timer was ever armed, it is cleared and
        `stop-typing` is emitted; the trimmed text is sent to the selected user;
        the input and the error are cleared. */
    method HandleSendMessage()
      modifies this`newMessage, this`error, this`stopTimers, svc`outbox
      requires Valid()
      ensures Valid()
      ensures Blank(old(newMessage)) || !isConnected || selected.None? || selected.value.InChannel? ==>
        newMessage == old(newMessage) && error == old(error) && stopTimers == old(stopTimers) &&
        svc.outbox == old(svc.outbox)
      ensures !Blank(old(newMessage)) && isConnected && selected.Some? && selected.value.WithUser? ==>
        newMessage == "" && error == "" && stopTimers == map[] &&
        svc.outbox == old(svc.outbox)
          + (if typingRef.Some? then Emitted(svc.socket, Emit(TypingStop, TypingSignal(selected.value.userId, None, me))) else [])
          + Emitted(svc.socket, Emit(SendDirect, DirectMessage(me, selected.value.userId, workspaceId, Trim(old(newMessage)))))
    {
      var text := Trim(newMessage);
      if text == [] || !isConnected || selected.None? {
        return;
      }
      if selected.value.InChannel? {
        return;
      }
      SendTo(selected.value.userId, text);
    }

    /** `handleInputChange`. Text with a non-space character, while connected in
        a user chat, emits `typing` and re-arms the single stop timer for that
        peer. A blank input emits `stop-typing` at once if a stop timer was ever
        armed (the ref is never reset, so also after it fired). Anything else
        only updates the input. */
    method HandleInputChange(value: string)
      modifies this`newMessage, this`stopTimers, this`typingRef, this`nextTimer, svc`outbox
      requires Valid()
      ensures Valid()
      ensures newMessage == value
      ensures !Blank(value) && isConnected && selected.Some? && selected.value.WithUser? ==>
        svc.outbox == old(svc.outbox) + Emitted(svc.socket, Emit(TypingStart, TypingSignal(selected.value.userId, None, me))) &&
        typingRef == Some(old(nextTimer)) && stopTimers == map[old(nextTimer) := selected.value.userId]
      ensures Blank(value) && old(typingRef).Some? ==>
        svc.outbox == old(svc.outbox) + Emitted(svc.socket, Emit(TypingStop, TypingSignal(selected.value.userId, None, me))) &&
        typingRef == old(typingRef) && stopTimers == map[]
      ensures !Blank(value) && !(isConnected && selected.Some? && selected.value.WithUser?) ==>
        svc.outbox == old(svc.outbox) && typingRef == old(typingRef) && stopTimers == old(stopTimers)
      ensures Blank(value) && old(typingRef).None? ==>
        svc.outbox == old(svc.outbox) && typingRef == old(typingRef) && stopTimers == old(stopTimers)
    {
      var typed := Trim(value) != [];
      if typed && isConnected && selected.Some? && selected.value.WithUser? {
        SignalTyping();
      } else if !typed && typingRef.Some? {
        SignalStopTyping();
      }
      newMessage := value;
    }

    /** A pending stop timer fires: `stop-typing` naming the peer it was armed
        for. `typingRef` keeps naming it. */
    method FireStopTimer(h: nat)
      modifies this`stopTimers, svc`outbox
      requires Valid() && h in stopTimers
      ensures Valid()
      ensures stopTimers == map[] && typingRef == Some(h)
      ensures svc.outbox == old(svc.outbox) + Emitted(svc.socket, Emit(TypingStop, TypingSignal(old(stopTimers)[h], None, me)))
    {
      svc.StopTyping(stopTimers[h], None, me);
      stopTimers := stopTimers - {h};
    }

    /** `cleanup`: remove the seven handlers by their raw callbacks, clear the
        stop timer and reset the registration flag. */
    method Cleanup()
      modifies this`stopTimers, this`registered, svc`socket
      requires Valid()
      ensures Valid()
      ensures !registered && stopTimers == map[]
      ensures svc.socket == Removed(old(svc.socket), CleanupRegistrations(owner))
    {
      ghost var t := svc.socket;
      svc.Off(ReceiveMessage, Callback(handleNewOneToOneMessage, owner));
      svc.Off(TypingStart, Callback(handleTyping, owner));
      RemovedTwice(t, [Registration(ReceiveMessage, Callback(handleNewOneToOneMessage, owner))],
                   [Registration(TypingStart, Callback(handleTyping, owner))]);
      ghost var acc := [Registration(ReceiveMessage, Callback(handleNewOneToOneMessage, owner))] +
                       [Registration(TypingStart, Callback(handleTyping, owner))];
      svc.Off(TypingStop, Callback(handleStopTyping, owner));
      RemovedTwice(t, acc, [Registration(TypingStop, Callback(handleStopTyping, owner))]);
      acc := acc + [Registration(TypingStop, Callback(handleStopTyping, owner))];
      svc.OffOnlineUsers(Callback(handleOnlineUsers, owner));
      RemovedTwice(t, acc, [Registration(OnlineUsers, Callback(handleOnlineUsers, owner))]);
      acc := acc + [Registration(OnlineUsers, Callback(handleOnlineUsers, owner))];
      svc.OffUserOnline(Callback(handleUserOnline, owner));
      RemovedTwice(t, acc, [Registration(UserOnline, Callback(handleUserOnline, owner))]);
      acc := acc + [Registration(UserOnline, Callback(handleUserOnline, owner))];
      svc.OffUserOffline(Callback(handleUserOffline, owner));
      RemovedTwice(t, acc, [Registration(UserOffline, Callback(handleUserOffline, owner))]);
      acc := acc + [Registration(UserOffline, Callback(handleUserOffline, owner))];
      svc.Off(AckSendMessage, Callback(handleMessageAck, owner));
      RemovedTwice(t, acc, [Registration(AckSendMessage, Callback(handleMessageAck, owner))]);
      acc := acc + [Registration(AckSendMessage, Callback(handleMessageAck, owner))];
      assert acc == CleanupRegistrations(owner);
      ClearStopTimer();
      registered := false;
    }

    /** Register the eight handlers, as `setupSocketListeners` does. */
    method RegisterHandlers()
      modifies this`readyClosures, svc`socket, svc`minted
      ensures svc.socket == Added(old(svc.socket), SetupRegistrations(owner, old(svc.minted), old(readyClosures)))
      ensures readyClosures == old(readyClosures) + 1
    {
      ghost var t := svc.socket;
      ghost var w := svc.minted;
      var k := readyClosures;
      svc.OnMessage(Callback(handleNewOneToOneMessage, owner));
      svc.OnTyping(Callback(handleTyping, owner));
      ghost var acc := [Registration(ReceiveMessage, Callback(handleNewOneToOneMessage, owner))];
      AddedTwice(t, acc, [Registration(TypingStart, Callback(handleTyping, owner))]);
      acc := acc + [Registration(TypingStart, Callback(handleTyping, owner))];
      svc.OnStopTyping(Callback(handleStopTyping, owner));
      AddedTwice(t, acc, [Registration(TypingStop, Callback(handleStopTyping, owner))]);
      acc := acc + [Registration(TypingStop, Callback(handleStopTyping, owner))];
      svc.OnOnlineUsers(Callback(handleOnlineUsers, owner));
      AddedTwice(t, acc, [Registration(OnlineUsers, Wrapper(Callback(handleOnlineUsers, owner), w))]);
      acc := acc + [Registration(OnlineUsers, Wrapper(Callback(handleOnlineUsers, owner), w))];
      assert t.Some? ==> svc.minted == w + 1;
      svc.OnUserOnline(Callback(handleUserOnline, owner));
      AddedTwice(t, acc, [Registration(UserOnline, Wrapper(Callback(handleUserOnline, owner), w + 1))]);
      acc := acc + [Registration(UserOnline, Wrapper(Callback(handleUserOnline, owner), w + 1))];
      assert t.Some? ==> svc.minted == w + 2;
      svc.OnUserOffline(Callback(handleUserOffline, owner));
      AddedTwice(t, acc, [Registration(UserOffline, Wrapper(Callback(handleUserOffline, owner), w + 2))]);
      acc := acc + [Registration(UserOffline, Wrapper(Callback(handleUserOffline, owner), w + 2))];
      svc.OnAckSendMessage(Callback(handleMessageAck, owner));
      AddedTwice(t, acc, [Registration(AckSendMessage, Callback(handleMessageAck, owner))]);
      acc := acc + [Registration(AckSendMessage, Callback(handleMessageAck, owner))];
      svc.OnSocketReady(Inline(requestOnlineUsers, owner, k));
      AddedTwice(t, acc, [Registration(SocketReady, Inline(requestOnlineUsers, owner, k))]);
      acc := acc + [Registration(SocketReady, Inline(requestOnlineUsers, owner, k))];
      assert acc == SetupRegistrations(owner, w, k);
      readyClosures := k + 1;
    }

    /** `setupSocketListeners`. Skipped while the flag is set. Otherwise: join
        the personal room, register the eight handlers, set the flag, copy the
        service's connection status and, when connected, ask for the online
        users straight away. */
    method Setup()
      modifies this`registered, this`isConnected, this`readyClosures, svc`socket, svc`minted, svc`outbox
      requires Valid()
      ensures Valid()
      ensures old(registered) ==> (registered && isConnected == old(isConnected) &&
        svc.socket == old(svc.socket) && svc.outbox == old(svc.outbox))
      ensures !old(registered) ==> registered && isConnected == svc.IsSocketConnected()
      ensures !old(registered) ==> svc.socket == Added(old(svc.socket), SetupRegistrations(owner, old(svc.minted), old(readyClosures)))
      ensures !old(registered) ==>
        svc.outbox == old(svc.outbox) + Emitted(old(svc.socket), Emit(JoinRoom, RoomJoin(me)))
                      + (if isConnected then [Emit(RequestOnlineUsers, NoPayload)] else [])
    {
      if registered {
        return;
      }
      svc.JoinPersonalRoom(me);
      RegisterHandlers();
      registered := true;
      var connected := svc.IsSocketConnected();
      isConnected := connected;
      if connected {
        svc.EmitOnTransport(Emit(RequestOnlineUsers, NoPayload));
      }
    }

    /** `initializeSocket`: clean up, then set up at once when the service is
        connected, or defer the setup by 500 ms. */
    method Initialize()
      modifies this`stopTimers, this`registered, this`isConnected, this`readyClosures, this`deferredSetups,
               svc`socket, svc`minted, svc`outbox
      requires Valid()
      ensures Valid()
      ensures old(svc.IsSocketConnected()) ==> registered && deferredSetups == old(deferredSetups)
      ensures !old(svc.IsSocketConnected()) ==> !registered && deferredSetups == old(deferredSetups) + 1
      ensures !old(svc.IsSocketConnected()) ==> svc.outbox == old(svc.outbox)
      ensures !old(svc.IsSocketConnected()) ==> svc.socket == Removed(old(svc.socket), CleanupRegistrations(owner))
      ensures old(svc.IsSocketConnected()) ==>
        svc.socket == Added(Removed(old(svc.socket), CleanupRegistrations(owner)),
                            SetupRegistrations(owner, old(svc.minted), old(readyClosures)))
      ensures old(svc.IsSocketConnected()) ==> isConnected == svc.IsSocketConnected()
      ensures old(svc.IsSocketConnected()) ==>
        svc.outbox == old(svc.outbox) + Emitted(old(svc.socket), Emit(JoinRoom, RoomJoin(me)))
                      + (if isConnected then [Emit(RequestOnlineUsers, NoPayload)] else [])
    {
      Cleanup();
      if svc.IsSocketConnected() {
        Setup();
      } else {
        deferredSetups := deferredSetups + 1;
      }
    }

    /** A deferred setup runs; nothing cancels it, not even unmounting. */
    method FireDeferredSetup()
      modifies this`registered, this`isConnected, this`readyClosures, this`deferredSetups,
               svc`socket, svc`minted, svc`outbox
      requires Valid() && deferredSetups > 0
      ensures Valid()
      ensures registered && deferredSetups == old(deferredSetups) - 1
      ensures old(registered) ==> svc.socket == old(svc.socket) && svc.outbox == old(svc.outbox)
      ensures !old(registered) ==>
        svc.socket == Added(old(svc.socket), SetupRegistrations(owner, old(svc.minted), old(readyClosures)))
      ensures !old(registered) ==> isConnected == svc.IsSocketConnected()
      ensures !old(registered) ==>
        svc.outbox == old(svc.outbox) + Emitted(old(svc.socket), Emit(JoinRoom, RoomJoin(me)))
                      + (if isConnected then [Emit(RequestOnlineUsers, NoPayload)] else [])
    {
      deferredSetups := deferredSetups - 1;
      Setup();
    }

    /** The inline `socket-ready` closure: ask the server for the online users
        on the held transport. */
    method AskForOnlineUsers()
      modifies svc`outbox
      requires svc.socket.Some?
      ensures svc.outbox == old(svc.outbox) + [Emit(RequestOnlineUsers, NoPayload)]
    {
      svc.EmitOnTransport(Emit(RequestOnlineUsers, NoPayload));
    }

    /** One tick of the 2-second connection poll: when the service's status
        differs from the view's flag, copy it, and on a change to connected
        schedule a request for the online users 200 ms later. */
    method PollConnection()
      modifies this`isConnected, this`pendingRequests
      ensures isConnected == svc.IsSocketConnected()
      ensures pendingRequests == old(pendingRequests) + (if !old(isConnected) && isConnected then 1 else 0)
    {
      var connected := svc.IsSocketConnected();
      if connected != isConnected {
        isConnected := connected;
        if connected {
          pendingRequests := pendingRequests + 1;
        }
      }
    }

    /** A scheduled 200 ms request runs: `request-online-users` on the held
        transport; without one the call throws inside the timer and nothing is
        sent. */
    method FirePendingRequest()
      modifies this`pendingRequests, svc`outbox
      requires pendingRequests > 0
      ensures pendingRequests == old(pendingRequests) - 1
      ensures svc.outbox == old(svc.outbox) + Emitted(svc.socket, Emit(RequestOnlineUsers, NoPayload))
    {
      pendingRequests := pendingRequests - 1;
      if svc.socket.Some? {
        svc.EmitOnTransport(Emit(RequestOnlineUsers, NoPayload));
      }
    }

    /** The typing line under the input, with the selected user's name as the
        fallback. */
    function TypingLine(users: seq<MessageList.WorkspaceUser>): (r: Option<string>)
      reads this
      ensures r.None? <==> typing.entries == []
      ensures |typing.entries| == 1 && MessageList.LookupUser(users, typing.entries[0].userId).None? ==>
        r == Some((if selected.Some? && selected.value.name != "" then selected.value.name else "Someone") + " is typing...")
      ensures |typing.entries| == 1 && MessageList.LookupUser(users, typing.entries[0].userId).Some? ==>
        r == Some(MessageList.LookupUser(users, typing.entries[0].userId).value.name + " is typing...")
      ensures |typing.entries| > 1 ==> r == Some(Decimal(|typing.entries|) + " people are typing...")
    {
      MessageList.TypingLabel(typing.entries, users,
        if selected.Some? && selected.value.name != "" then selected.value.name else "Someone")
    }
  }
}

=== FILE: common.dfy ===
/** Values and string helpers shared by every part of the chat client model. */
module Common {

  datatype Option<+T> = None | Some(value: T)
  {
    /** The wrapped value, or `default` when there is none (JavaScript's `x || default`
        for a value that is either present or undefined). */
    function GetOr(default: T): T
    {
      match this
      case Some(v) => v
      case None => default
    }
  }

  /** The characters JavaScript's String.prototype.trim removes that the model
      knows about: ASCII white space, no-break space, the byte order mark and the
      line and paragraph separators. */
  predicate IsJsSpace(c: char)
  {
    c == ' ' || c == '\t' || c == '\n' || c == '\r' || c == '\U{B}' || c == '\U{C}'
    || c == '\U{A0}' || c == '\U{FEFF}' || c == '\U{2028}' || c == '\U{2029}'
  }

  /** Every character of `s` is white space (this includes the empty string). */
  predicate Blank(s: string)
  {
    forall i :: 0 <= i < |s| ==> IsJsSpace(s[i])
  }

  function TrimStart(s: string): (r: string)
    ensures |r| <= |s| && r == s[|s| - |r|..]
    ensures Blank(s[..|s| - |r|])
    ensures r != [] ==> !IsJsSpace(r[0])
  {
    if s != [] && IsJsSpace(s[0]) then
      var p := s[1..];
      var r := TrimStart(p);
      assert r == s[|s| - |r|..] by { assert p[|p| - |r|..] == s[|s| - |r|..]; }
      assert Blank(s[..|s| - |r|]) by {
        var front := s[..|s| - |r|];
        forall k | 0 <= k < |front| ensures IsJsSpace(front[k]) {
          if k > 0 { assert front[k] == p[..|p| - |r|][k - 1]; }
        }
      }
      r
    else s
  }

  function TrimEnd(s: string): (r: string)
    ensures |r| <= |s| && r == s[..|r|]
    ensures Blank(s[|r|..])
    ensures r != [] ==> !IsJsSpace(r[|r| - 1])
  {
    if s != [] && IsJsSpace(s[|s| - 1]) then
      var p := s[..|s| - 1];
      var r := TrimEnd(p);
      assert r == s[..|r|] by { assert p[..|r|] == s[..|r|]; }
      assert Blank(s[|r|..]) by {
        var back := s[|r|..];
        forall k | 0 <= k < |back| ensures IsJsSpace(back[k]) {
          if k < |p| - |r| { assert back[k] == p[|r|..][k]; }
        }
      }
      r
    else s
  }

  /** String.prototype.trim: `s` without its leading and trailing white space.
      The result is empty exactly when `s` is blank; otherwise it starts and ends
      with a non-space character. */
  function Trim(s: string): (r: string)
    ensures r == [] <==> Blank(s)
    ensures r != [] ==> !IsJsSpace(r[0]) && !IsJsSpace(r[|r| - 1])
  {
    var a := TrimStart(s);
    var r := TrimEnd(a);
    BlankParts(s, |s| - |a|, |r|);
    assert r != [] ==> r[0] == a[0];
    r
  }

  /** If `s` is blank around the middle piece `s[i..i+n]`, `s` is blank exactly
      when that piece is, and a non-blank piece means a non-blank `s`. */
  lemma BlankParts(s: string, i: nat, n: nat)
    requires i + n <= |s| && Blank(s[..i]) && Blank(s[i + n..])
    ensures Blank(s) <==> Blank(s[i..i + n])
  {
    if Blank(s[i..i + n]) {
      forall k | 0 <= k < |s| ensures IsJsSpace(s[k]) {
        if k < i { assert s[k] == s[..i][k]; }
        else if k < i + n { assert s[k] == s[i..i + n][k - i]; }
        else { assert s[k] == s[i + n..][k - i - n]; }
      }
    }
    if Blank(s) {
      var m := s[i..i + n];
      forall k | 0 <= k < n ensures IsJsSpace(m[k]) {
        assert m[k] == s[i + k];
      }
    }
  }

  /** What trim keeps is one contiguous piece of `s` with only white space
      around it. */
  lemma TrimIsSlice(s: string) returns (i: nat)
    ensures i + |Trim(s)| <= |s| && Trim(s) == s[i..i + |Trim(s)|]
    ensures Blank(s[..i]) && Blank(s[i + |Trim(s)|..])
  {
    var a := TrimStart(s);
    var r := TrimEnd(a);
    assert r == Trim(s);
    i := |s| - |a|;
    assert r == s[i..i + |r|] by {
      assert a == s[i..] && r == a[..|r|];
    }
    assert Blank(s[i + |r|..]) by {
      assert s[i + |r|..] == a[|r|..];
    }
  }

  /** The decimal digit character for `d`. */
  function DigitChar(d: nat): (c: char)
    requires d < 10
    ensures '0' <= c <= '9' && (c as int) - ('0' as int) == d
  {
    (d + '0' as int) as char
  }

  predicate AllDigits(s: string)
  {
    forall i :: 0 <= i < |s| ==> '0' <= s[i] <= '9'
  }

  /** The numeral JavaScript prints for a non-negative integer in a template string. */
  function Decimal(n: nat): (r: string)
    ensures |r| >= 1 && AllDigits(r)
    ensures r[0] == '0' ==> n == 0
  {
    if n < 10 then [DigitChar(n)] else Decimal(n / 10) + [DigitChar(n % 10)]
  }

  /** The value a string of decimal digits denotes. */
  function DigitsValue(s: string): nat
    requires AllDigits(s)
  {
    if s == [] then 0 else 10 * DigitsValue(s[..|s| - 1]) + ((s[|s| - 1] as int) - ('0' as int))
  }

  /** Reading back the printed numeral gives the number: the count shown in a
      typing label is the count of typers. */
  lemma {:induction false} DecimalRoundTrip(n: nat)
    ensures DigitsValue(Decimal(n)) == n
  {
    if n >= 10 {
      DecimalRoundTrip(n / 10);
      var d := Decimal(n);
      assert d[..|d| - 1] == Decimal(n / 10);
    }
  }

  /** Two different counts never print the same numeral. */
  lemma DecimalInjective(m: nat, n: nat)
    requires Decimal(m) == Decimal(n)
    ensures m == n
  {
    DecimalRoundTrip(m);
    DecimalRoundTrip(n);
  }
}

=== FILE: message_list.dfy ===
/** The presentation rules of the message list: date separators, grouping of
    consecutive messages, the sender-name fallback chain, avatar initials, the
    typing label and the empty state. A timestamp is an integer number of
    milliseconds; the calendar day of a timestamp (local time, as
    `toDateString` uses) is the parameter `dayOf`. */
module MessageList {
  import opened Common
  import opened Timeline
  import Typing

  /** Consecutive messages from one sender are grouped within this many ms. */
  const GroupWindowMs := 5 * 60 * 1000

  /** A workspace member as the list receives it; a member may carry its id as
      `userId`, `_id` or `id`. */
  datatype WorkspaceUser = WorkspaceUser(userId: Option<UserId>, dbId: Option<string>, altId: Option<string>, name: string)

  /** `new Date(x).toDateString()`: the calendar day, or the invalid date when the
      message has neither timestamp. */
  datatype DayKey = Day(day: int) | InvalidDate

  /** `createdAt || sentAt`: a `createdAt` of 0 is falsy and falls through to
      `sentAt`, which is used as it is. */
  function Stamp(m: Message): Option<int>
  {
    if m.createdAt.Some? && m.createdAt.value != 0 then m.createdAt else m.sentAt
  }

  function DayKeyOf(m: Message, dayOf: int -> int): DayKey
  {
    match Stamp(m)
    case Some(t) => Day(dayOf(t))
    case None => InvalidDate
  }

  /** `shouldShowDateSeparator`. */
  predicate ShowDateSeparator(cur: Message, prev: Option<Message>, dayOf: int -> int)
  {
    prev.None? || DayKeyOf(cur, dayOf) != DayKeyOf(prev.value, dayOf)
  }

  /** `currentTime - previousTime < 5 min`; a missing timestamp gives NaN, and
      every comparison with NaN is false. */
  predicate WithinWindow(cur: Message, prev: Message)
  {
    Stamp(cur).Some? && Stamp(prev).Some? && Stamp(cur).value - Stamp(prev).value < GroupWindowMs
  }

  /** `shouldGroupMessage`. */
  predicate ShouldGroup(cur: Message, prev: Option<Message>, dayOf: int -> int)
  {
    prev.Some? && cur.senderId == prev.value.senderId && WithinWindow(cur, prev.value)
    && !ShowDateSeparator(cur, prev, dayOf)
  }

  // ---- getSenderName ----------------------------------------------------

  /** Which id field a lookup compares. */
  datatype IdField = UserIdField | DbIdField | AltIdField

  function FieldOf(u: WorkspaceUser, f: IdField): Option<string>
  {
    match f
    case UserIdField => u.userId
    case DbIdField => u.dbId
    case AltIdField => u.altId
  }

  /** `users[k]` is the first member whose field `f` is `id`. */
  predicate FirstMatch(users: seq<WorkspaceUser>, f: IdField, id: string, k: int)
  {
    0 <= k < |users| && FieldOf(users[k], f) == Some(id) &&
    forall j :: 0 <= j < k ==> FieldOf(users[j], f) != Some(id)
  }

  /** `users.find(u => u.<f> === id)`. */
  function FindBy(users: seq<WorkspaceUser>, f: IdField, id: string): (r: Option<WorkspaceUser>)
    ensures r.Some? ==> r.value in users && FieldOf(r.value, f) == Some(id)
    ensures r.None? <==> forall i :: 0 <= i < |users| ==> FieldOf(users[i], f) != Some(id)
    ensures r.Some? ==> exists k :: FirstMatch(users, f, id, k) && users[k] == r.value
    decreases |users|
  {
    if users == [] then None
    else if FieldOf(users[0], f) == Some(id) then Some(users[0])
    else
      var r := FindBy(users[1..], f, id);
      assert forall i :: 1 <= i < |users| ==> users[i] == users[1..][i - 1];
      assert r.Some? ==> exists k :: FirstMatch(users, f, id, k) && users[k] == r.value by {
        if r.Some? {
          var k :| FirstMatch(users[1..], f, id, k) && users[1..][k] == r.value;
          assert users[k + 1] == r.value;
          forall j | 0 <= j < k + 1 ensures FieldOf(users[j], f) != Some(id) {
            if j > 0 { assert users[j] == users[1..][j - 1]; }
          }
          assert FirstMatch(users, f, id, k + 1);
        }
      }
      r
  }

  /** The lookup chain both `getSenderName` and the typing label use: match by
      `userId`, then by `_id`, then by `id`. */
  function LookupUser(users: seq<WorkspaceUser>, id: string): (r: Option<WorkspaceUser>)
    ensures r.Some? ==> r.value in users
    ensures r.None? <==> forall i :: 0 <= i < |users| ==>
      users[i].userId != Some(id) && users[i].dbId != Some(id) && users[i].altId != Some(id)
    ensures r.Some? ==> r.value.userId == Some(id) || r.value.dbId == Some(id) || r.value.altId == Some(id)
    ensures FindBy(users, UserIdField, id).Some? ==> r == FindBy(users, UserIdField, id)
    ensures FindBy(users, UserIdField, id).None? && FindBy(users, DbIdField, id).Some? ==>
      r == FindBy(users, DbIdField, id)
    ensures FindBy(users, UserIdField, id).None? && FindBy(users, DbIdField, id).None? ==>
      r == FindBy(users, AltIdField, id)
  {
    var a := FindBy(users, UserIdField, id);
    if a.Some? then a
    else
      var b := FindBy(users, DbIdField, id);
      if b.Some? then b else FindBy(users, AltIdField, id)
  }

  /** `s.slice(-4)`: the last four characters, or all of a shorter string. */
  function Last4(s: string): (r: string)
    ensures |r| == if |s| < 4 then |s| else 4
    ensures s == s[..|s| - |r|] + r
  {
    if |s| <= 4 then s else s[|s| - 4..]
  }

  /** `getSenderName`: the first of "You", `senderName`, `sender.name`, a
      workspace member's name, "User " and the id's last four characters, and
      "Unknown User" that applies. */
  function SenderName(m: Message, me: Option<UserId>, users: seq<WorkspaceUser>): (r: string)
    ensures m.senderId == me ==> r == "You"
    ensures m.senderId != me && m.senderName != "" ==> r == m.senderName
    ensures m.senderId != me && m.senderName == "" && m.senderObjName != "" ==> r == m.senderObjName
    ensures m.senderId != me && m.senderName == "" && m.senderObjName == "" ==>
      match m.senderId
      case None => r == "Unknown User"
      case Some(id) =>
        if id == "" then r == "Unknown User"
        else if LookupUser(users, id).Some? then r == LookupUser(users, id).value.name
        else r == "User " + Last4(id)
  {
    if m.senderId == me then "You"
    else if m.senderName != "" then m.senderName
    else if m.senderObjName != "" then m.senderObjName
    else if m.senderId.Some? && m.senderId.value != "" && |users| > 0 && LookupUser(users, m.senderId.value).Some? then
      LookupUser(users, m.senderId.value).value.name
    else if m.senderId.Some? && m.senderId.value != "" then "User " + Last4(m.senderId.value)
    else "Unknown User"
  }

  /** A member matched by `userId` wins over members matched by the other id
      fields, whatever their position in the list. */
  lemma UserIdMatchWins(m: Message, me: Option<UserId>, users: seq<WorkspaceUser>, k: nat)
    requires m.senderId != me && m.senderName == "" && m.senderObjName == ""
    requires m.senderId.Some? && m.senderId.value != ""
    requires k < |users| && users[k].userId == m.senderId
    requires forall j :: 0 <= j < k ==> users[j].userId != m.senderId
    ensures SenderName(m, me, users) == users[k].name
  {
    var id := m.senderId.value;
    var a := FindBy(users, UserIdField, id);
    assert FieldOf(users[k], UserIdField) == Some(id);
    var k' :| FirstMatch(users, UserIdField, id, k') && users[k'] == a.value;
    assert k' == k;
  }

  /** Without any name source, the fallback shows the last (up to) four
      characters of the sender id. */
  lemma FallbackShowsIdSuffix(m: Message, me: Option<UserId>, users: seq<WorkspaceUser>)
    requires m.senderId != me && m.senderName == "" && m.senderObjName == ""
    requires m.senderId.Some? && m.senderId.value != "" && LookupUser(users, m.senderId.value).None?
    ensures var r := SenderName(m, me, users); var id := m.senderId.value;
      r[..5] == "User " && |r| == 5 + (if |id| < 4 then |id| else 4) && id == id[..|id| + 5 - |r|] + r[5..]
  {
  }

  // ---- getUserInitials --------------------------------------------------

  /** `name.split(' ')`. */
  function Split(s: string): (r: seq<string>)
    ensures |r| >= 1
    decreases |s|
  {
    if s == [] then [[]]
    else
      var rest := Split(s[1..]);
      if s[0] == ' ' then [[]] + rest else [[s[0]] + rest[0]] + rest[1..]
  }

  /** `.map(n => n[0]).join('')`: an empty word contributes nothing. */
  function Heads(words: seq<string>): string
    decreases |words|
  {
    if words == [] then []
    else (if words[0] == [] then [] else [words[0][0]]) + Heads(words[1..])
  }

  /** ASCII upper-casing. */
  function Upper(c: char): char
  {
    if 'a' <= c <= 'z' then (c as int - 32) as char else c
  }

  function UpperAll(s: string): (r: string)
    ensures |r| == |s| && forall i :: 0 <= i < |s| ==> r[i] == Upper(s[i])
  {
    seq(|s|, i requires 0 <= i < |s| => Upper(s[i]))
  }

  /** `getUserInitials`: "U" for a missing or empty name, else the upper-cased
      first letters of the space-separated words, at most two. */
  function Initials(name: string): (r: string)
    ensures name == "" ==> r == "U"
    ensures |r| <= 2
  {
    if name == "" then "U"
    else
      var h := UpperAll(Heads(Split(name)));
      if |h| <= 2 then h else h[..2]
  }

  predicate AllSpaces(s: string)
  {
    forall i :: 0 <= i < |s| ==> s[i] == ' '
  }

  /** The heads of the split are empty exactly when the string is only spaces;
      otherwise the first head is the first non-space character. */
  lemma {:induction false} HeadsOfSplit(s: string)
    ensures Heads(Split(s)) == [] <==> AllSpaces(s)
    ensures s != [] && s[0] != ' ' ==> Heads(Split(s)) != [] && Heads(Split(s))[0] == s[0]
    decreases |s|
  {
    if s != [] {
      HeadsOfSplit(s[1..]);
      var rest := Split(s[1..]);
      if s[0] == ' ' {
        assert Split(s)[1..] == rest;
        assert AllSpaces(s) <==> AllSpaces(s[1..]) by {
          forall i | 0 <= i < |s[1..]| ensures s[1..][i] == s[i + 1] { }
        }
      } else {
        var w := [s[0]] + rest[0];
        assert Split(s) == [w] + rest[1..];
        assert Split(s)[1..] == rest[1..];
        assert Heads(Split(s)) == [s[0]] + Heads(rest[1..]);
      }
    }
  }

  /** A name that is non-empty but all spaces has EMPTY initials (not "U"). */
  lemma BlankNameHasNoInitials(name: string)
    requires name != [] && AllSpaces(name)
    ensures Initials(name) == []
  {
    HeadsOfSplit(name);
  }

  /** A name with a non-space character has at least one initial, and a name
      starting with a letter starts its initials with that letter upper-cased. */
  lemma NamedInitials(name: string)
    requires name != [] && !AllSpaces(name)
    ensures 1 <= |Initials(name)| <= 2
    ensures name[0] != ' ' ==> Initials(name)[0] == Upper(name[0])
  {
    HeadsOfSplit(name);
  }

  /** Splitting a word with no space followed by a space and more text. */
  lemma {:induction false} SplitAfterWord(w: string, rest: string)
    requires !(' ' in w)
    ensures Split(w + [' '] + rest) == [w] + Split(rest)
    decreases |w|
  {
    if w == [] {
      assert w + [' '] + rest == [' '] + rest;
      assert ([' '] + rest)[1..] == rest;
    } else {
      SplitAfterWord(w[1..], rest);
      assert (w + [' '] + rest)[1..] == w[1..] + [' '] + rest;
      assert [w[0]] + w[1..] == w;
    }
  }

  lemma {:induction false} SplitWord(w: string)
    requires !(' ' in w)
    ensures Split(w) == [w]
    decreases |w|
  {
    if w != [] {
      SplitWord(w[1..]);
      assert [w[0]] + w[1..] == w;
    }
  }

  /** "first last" gives the two upper-cased first letters. */
  lemma TwoWordInitials(first: string, last: string)
    requires first != [] && last != [] && !(' ' in first) && !(' ' in last)
    ensures Initials(first + [' '] + last) == [Upper(first[0]), Upper(last[0])]
  {
    SplitAfterWord(first, last);
    SplitWord(last);
    var ws := Split(first + [' '] + last);
    assert ws == [first, last];
    assert Heads(ws) == [first[0]] + Heads([last]);
    assert Heads([last]) == [last[0]] + Heads([]);
  }

  // ---- typing label -------------------------------------------------------

  /** The label under the list: "<name> is typing..." for one typer, with the
      member's name when a lookup finds one and `fallback` otherwise, and
      "<n> people are typing..." for n > 1. MessageList uses "Someone" as the
      fallback; the one-to-one view's own label uses the selected user's name. */
  function TypingLabel(typers: seq<Typing.TypingEntry>, users: seq<WorkspaceUser>, fallback: string): (r: Option<string>)
    ensures r.None? <==> typers == []
    ensures |typers| > 1 ==> r == Some(Decimal(|typers|) + " people are typing...")
    ensures |typers| == 1 && LookupUser(users, typers[0].userId).None? ==> r == Some(fallback + " is typing...")
    ensures |typers| == 1 && LookupUser(users, typers[0].userId).Some? ==>
      r == Some(LookupUser(users, typers[0].userId).value.name + " is typing...")
  {
    if |typers| == 0 then None
    else if |typers| == 1 then
      var name := if |users| > 0 then
          match LookupUser(users, typers[0].userId)
          case Some(u) => u.name
          case None => fallback
        else fallback;
      Some(name + " is typing...")
    else Some(Decimal(|typers|) + " people are typing...")
  }

  // ---- the rendered list -------------------------------------------------

  /** What the list shows for one message. */
  datatype Row = Row(message: Message, separator: bool, grouped: bool, own: bool,
                     sender: string, avatar: Option<string>)

  /** The empty state, or the rows followed by the typing label. */
  datatype ListView = EmptyState | Listing(rows: seq<Row>, typingLabel: Option<string>)

  function RowAt(ms: seq<Message>, i: nat, me: Option<UserId>, myName: string,
                 users: seq<WorkspaceUser>, dayOf: int -> int): (r: Row)
    requires i < |ms|
    ensures r.message == ms[i] && (r.own <==> ms[i].senderId == me) && (r.avatar.None? <==> r.grouped)
    ensures i == 0 ==> r.separator
    ensures i > 0 ==> (r.separator <==> DayKeyOf(ms[i], dayOf) != DayKeyOf(ms[i - 1], dayOf))
    ensures r.grouped <==>
      i > 0 && !r.separator && ms[i].senderId == ms[i - 1].senderId &&
      Stamp(ms[i]).Some? && Stamp(ms[i - 1]).Some? &&
      Stamp(ms[i]).value - Stamp(ms[i - 1]).value < GroupWindowMs
    ensures r.sender == SenderName(ms[i], me, users)
    ensures !r.grouped ==> r.avatar == Some(Initials(if r.own then (if myName != "" then myName else "You") else r.sender))
  {
    var prev := if i > 0 then Some(ms[i - 1]) else None;
    var m := ms[i];
    var grouped := ShouldGroup(m, prev, dayOf);
    var own := m.senderId == me;
    var sender := SenderName(m, me, users);
    var avatarName := if own then (if myName != "" then myName else "You") else sender;
    Row(m, ShowDateSeparator(m, prev, dayOf), grouped, own, sender,
        if grouped then None else Some(Initials(avatarName)))
  }

  /** The whole list. An empty list shows the empty state and nothing else (no
      typing label). Otherwise there is one row per message in order; the first
      row has a date separator and later rows have one exactly when the day
      changes; a grouped row has no separator, follows a message from the same
      sender less than five minutes earlier, and has no avatar; a row is "own"
      exactly when its sender is the current user. */
  function Render(ms: seq<Message>, me: Option<UserId>, myName: string,
                  typers: seq<Typing.TypingEntry>, users: seq<WorkspaceUser>,
                  dayOf: int -> int): (v: ListView)
    ensures v.EmptyState? <==> ms == []
    ensures v.Listing? ==> (|v.rows| == |ms| && v.rows[0].separator &&
      v.typingLabel == TypingLabel(typers, users, "Someone"))
    ensures v.Listing? ==> forall i :: 0 <= i < |ms| ==>
      v.rows[i].message == ms[i] &&
      (v.rows[i].own <==> ms[i].senderId == me) &&
      (v.rows[i].avatar.None? <==> v.rows[i].grouped) &&
      (i > 0 ==> (v.rows[i].separator <==> DayKeyOf(ms[i], dayOf) != DayKeyOf(ms[i - 1], dayOf)))
    ensures v.Listing? ==> forall i :: 0 <= i < |ms| ==>
      (v.rows[i].grouped <==>
        i > 0 && !v.rows[i].separator && ms[i].senderId == ms[i - 1].senderId &&
        Stamp(ms[i]).Some? && Stamp(ms[i - 1]).Some? &&
        Stamp(ms[i]).value - Stamp(ms[i - 1]).value < GroupWindowMs)
    ensures v.Listing? ==> forall i :: 0 <= i < |ms| ==>
      v.rows[i].sender == SenderName(ms[i], me, users) &&
      (!v.rows[i].grouped ==> v.rows[i].avatar == Some(Initials(
        if v.rows[i].own then (if myName != "" then myName else "You") else v.rows[i].sender)))
  {
    if ms == [] then EmptyState
    else
      var rows := seq(|ms|, i requires 0 <= i < |ms| => RowAt(ms, i, me, myName, users, dayOf));
      assert forall i :: 0 <= i < |ms| ==> rows[i] == RowAt(ms, i, me, myName, users, dayOf);
      Listing(rows, TypingLabel(typers, users, "Someone"))
  }

  /** Messages stamped on one day show a single separator, above the first. */
  lemma OneDayOneSeparator(ms: seq<Message>, me: Option<UserId>, myName: string,
                           typers: seq<Typing.TypingEntry>, users: seq<WorkspaceUser>,
                           dayOf: int -> int, day: int)
    requires ms != []
    requires forall i :: 0 <= i < |ms| ==> Stamp(ms[i]).Some? && dayOf(Stamp(ms[i]).value) == day
    ensures forall i :: 0 <= i < |ms| ==> (Render(ms, me, myName, typers, users, dayOf).rows[i].separator <==> i == 0)
  {
  }
}

=== FILE: presence.dfy ===
/** The presence list of the one-to-one chat view: `{userId, status}` entries
    built from `online-users` snapshots and `user-online` / `user-offline`
    deltas, and the `isUserOnline` lookup. */
module Presence {

  type UserId = string

  datatype Status = Online | Offline

  datatype PresenceEntry = PresenceEntry(userId: UserId, status: Status)

  /** `isUserOnline(u)`: some entry has id `u` and status online. */
  predicate IsOnline(list: seq<PresenceEntry>, u: UserId)
  {
    exists i :: 0 <= i < |list| && list[i].userId == u && list[i].status == Online
  }

  /** The ids present in the list. */
  function IdsOf(list: seq<PresenceEntry>): set<UserId>
  {
    set i | 0 <= i < |list| :: list[i].userId
  }

  /** The set of a snapshot's user ids. */
  function SetOf(users: seq<UserId>): set<UserId>
  {
    set i | 0 <= i < |users| :: users[i]
  }

  /** No two entries for the same user. */
  predicate Unique(list: seq<PresenceEntry>)
  {
    forall i, j :: 0 <= i < j < |list| ==> list[i].userId != list[j].userId
  }

  /** `findIndex(u => u.userId === userId)`: the first entry for `u`, or -1. */
  function FindIndex(list: seq<PresenceEntry>, u: UserId): (k: int)
    ensures -1 <= k < |list|
    ensures k >= 0 ==> list[k].userId == u && forall j :: 0 <= j < k ==> list[j].userId != u
    ensures k == -1 <==> u !in IdsOf(list)
    decreases |list|
  {
    if list == [] then -1
    else if list[0].userId == u then 0
    else
      var k := FindIndex(list[1..], u);
      assert u in IdsOf(list[1..]) ==> u in IdsOf(list) by {
        if u in IdsOf(list[1..]) {
          var i :| 0 <= i < |list[1..]| && list[1..][i].userId == u;
          assert list[i + 1].userId == u;
        }
      }
      assert u in IdsOf(list) ==> u in IdsOf(list[1..]) by {
        if u in IdsOf(list) {
          var i :| 0 <= i < |list| && list[i].userId == u;
          assert list[1..][i - 1].userId == u;
        }
      }
      if k == -1 then -1 else k + 1
  }

  /** One online entry per snapshot id, in snapshot order. */
  function AllOnline(users: seq<UserId>): (r: seq<PresenceEntry>)
    ensures |r| == |users|
    ensures forall i :: 0 <= i < |r| ==> r[i] == PresenceEntry(users[i], Online)
  {
    seq(|users|, i requires 0 <= i < |users| => PresenceEntry(users[i], Online))
  }

  /** `handleOnlineUsers`: a snapshot whose id set differs from the current one
      replaces the list with one online entry per id; one with the same id set
      keeps the current list, statuses included. Either way the ids afterwards
      are exactly the snapshot's. */
  function Snapshot(prev: seq<PresenceEntry>, users: seq<UserId>): (r: seq<PresenceEntry>)
    ensures IdsOf(r) == SetOf(users)
    ensures SetOf(users) == IdsOf(prev) ==> r == prev
    ensures SetOf(users) != IdsOf(prev) ==>
      |r| == |users| && forall i :: 0 <= i < |r| ==> r[i].userId == users[i] && r[i].status == Online
  {
    if SetOf(users) != IdsOf(prev) then
      var r := AllOnline(users);
      assert IdsOf(r) == SetOf(users) by {
        forall v | v in SetOf(users) ensures v in IdsOf(r) {
          var i :| 0 <= i < |users| && users[i] == v;
          assert r[i].userId == v;
        }
      }
      r
    else prev
  }

  /** `handleUserOnline`: mark the first entry for `u` online, or append an
      online entry for `u`. */
  function MarkOnline(prev: seq<PresenceEntry>, u: UserId): (r: seq<PresenceEntry>)
    ensures IsOnline(r, u)
    ensures IdsOf(r) == IdsOf(prev) + {u}
    ensures |r| == if u in IdsOf(prev) then |prev| else |prev| + 1
    ensures forall i :: 0 <= i < |prev| && prev[i].userId != u ==> r[i] == prev[i]
    ensures forall v :: v != u ==> (IsOnline(r, v) <==> IsOnline(prev, v))
    ensures Unique(prev) ==> Unique(r)
  {
    var k := FindIndex(prev, u);
    if k != -1 then
      var r := prev[k := PresenceEntry(u, Online)];
      assert IdsOf(r) == IdsOf(prev) by {
        assert forall i :: 0 <= i < |r| ==> r[i].userId == prev[i].userId;
        assert forall v :: v in IdsOf(prev) ==> v in IdsOf(r) by {
          forall v | v in IdsOf(prev) ensures v in IdsOf(r) {
            var i :| 0 <= i < |prev| && prev[i].userId == v;
            assert r[i].userId == v;
          }
        }
      }
      assert r[k].userId == u && r[k].status == Online;
      OthersUnchanged(prev, r, u);
      r
    else
      var r := prev + [PresenceEntry(u, Online)];
      assert r[|prev|].userId == u && r[|prev|].status == Online;
      assert IdsOf(r) == IdsOf(prev) + {u} by {
        forall v | v in IdsOf(prev) ensures v in IdsOf(r) {
          var i :| 0 <= i < |prev| && prev[i].userId == v;
          assert r[i].userId == v;
        }
      }
      OthersUnchanged(prev, r, u);
      r
  }

  /** `handleUserOffline`: mark the first entry for `u` offline; a user with no
      entry is ignored, so the list never grows. */
  function MarkOffline(prev: seq<PresenceEntry>, u: UserId): (r: seq<PresenceEntry>)
    ensures |r| == |prev| && IdsOf(r) == IdsOf(prev)
    ensures u !in IdsOf(prev) ==> r == prev
    ensures forall i :: 0 <= i < |prev| && prev[i].userId != u ==> r[i] == prev[i]
    ensures forall v :: v != u ==> (IsOnline(r, v) <==> IsOnline(prev, v))
    ensures Unique(prev) ==> Unique(r) && !IsOnline(r, u)
  {
    var k := FindIndex(prev, u);
    if k != -1 then
      var r := prev[k := PresenceEntry(u, Offline)];
      assert IdsOf(r) == IdsOf(prev) by {
        forall v | v in IdsOf(prev) ensures v in IdsOf(r) {
          var i :| 0 <= i < |prev| && prev[i].userId == v;
          assert r[i].userId == v;
        }
      }
      OthersUnchanged(prev, r, u);
      assert Unique(prev) ==> !IsOnline(r, u) by {
        if Unique(prev) {
          forall i | 0 <= i < |r| && i != k ensures r[i].userId != u {
            assert r[i] == prev[i];
          }
        }
      }
      r
    else prev
  }

  /** When `r` agrees with `prev` on every entry not for `u` and has only extra
      entries for `u`, online status of every other user is the same. */
  lemma OthersUnchanged(prev: seq<PresenceEntry>, r: seq<PresenceEntry>, u: UserId)
    requires |prev| <= |r|
    requires forall i :: 0 <= i < |prev| && prev[i].userId != u ==> r[i] == prev[i]
    requires forall i :: 0 <= i < |r| && (i >= |prev| || prev[i].userId == u) ==> r[i].userId == u
    ensures forall v :: v != u ==> (IsOnline(r, v) <==> IsOnline(prev, v))
  {
    forall v | v != u ensures IsOnline(r, v) <==> IsOnline(prev, v) {
      if IsOnline(r, v) {
        var i :| 0 <= i < |r| && r[i].userId == v && r[i].status == Online;
        assert prev[i] == r[i];
      }
      if IsOnline(prev, v) {
        var i :| 0 <= i < |prev| && prev[i].userId == v && prev[i].status == Online;
        assert r[i] == prev[i];
      }
    }
  }

  /** After a snapshot that changed the id set, a user is online exactly when
      the snapshot lists them. */
  lemma ChangedSnapshotIsAuthoritative(prev: seq<PresenceEntry>, users: seq<UserId>, v: UserId)
    requires SetOf(users) != IdsOf(prev)
    ensures IsOnline(Snapshot(prev, users), v) <==> v in SetOf(users)
  {
    var r := Snapshot(prev, users);
    if v in SetOf(users) {
      var i :| 0 <= i < |users| && users[i] == v;
      assert r[i].userId == v && r[i].status == Online;
    }
  }

  /** A user the snapshot does not list is never online after it. */
  lemma SnapshotOnlyShowsListed(prev: seq<PresenceEntry>, users: seq<UserId>, v: UserId)
    requires v !in SetOf(users)
    ensures !IsOnline(Snapshot(prev, users), v)
  {
    var r := Snapshot(prev, users);
    forall i | 0 <= i < |r| ensures r[i].userId != v {
      assert r[i].userId in IdsOf(r);
    }
  }

  /** A snapshot with the same id set does not revive a user marked offline:
      `[u offline]` stays offline after the snapshot `[u]`. */
  lemma SameIdSetKeepsOffline(u: UserId)
    ensures !IsOnline(Snapshot([PresenceEntry(u, Offline)], [u]), u)
  {
    var prev := [PresenceEntry(u, Offline)];
    assert u in SetOf([u]) by { assert [u][0] == u; }
    assert u in IdsOf(prev) by { assert prev[0].userId == u; }
    assert SetOf([u]) == IdsOf(prev);
  }

  /** An offline delta after a snapshot listing `u` leaves `u` offline, as long
      as the list has one entry per user. */
  lemma OfflineAfterSnapshot(prev: seq<PresenceEntry>, u: UserId)
    requires Unique(prev)
    ensures !IsOnline(MarkOffline(Snapshot(prev, [u]), u), u)
  {
    var s := Snapshot(prev, [u]);
    if SetOf([u]) != IdsOf(prev) {
      assert |s| == 1;
    }
    assert Unique(s);
  }

  /** With distinct snapshot ids the resulting list has one entry per user. */
  lemma SnapshotUnique(prev: seq<PresenceEntry>, users: seq<UserId>)
    requires Unique(prev)
    requires forall i, j :: 0 <= i < j < |users| ==> users[i] != users[j]
    ensures Unique(Snapshot(prev, users))
  {
  }
}

=== FILE: socket.dfy ===
/** The socket wrapper shared by both chat views (`SocketService`): which
    transport it holds, its own connected flag, the heartbeat interval, the
    handlers registered on the transport and every event it emits. The
    socket.io transport is a record with a `connected` flag and its registered
    handlers in registration order; the transport's events are the methods `OnTransport*`,
    called by the environment. Timer ids are drawn from `nextTimer`. */
module Socket {
  import opened Common

  /** Milliseconds between two heartbeats. */
  const HeartbeatMs := 30000

  /** The events the client sends or listens to. */
  datatype EventName =
    | TransportConnect | TransportDisconnect | TransportConnectError | TransportError
    | TestEvent | SocketReady | Heartbeat | RequestOnlineUsers
    | JoinRoom | JoinChannelRoom | SendDirect | SendToChannel
    | TypingStart | TypingStop | ChannelTypingStart | ChannelTypingStop
    | ReceiveMessage | ReceiveChannelMessage | AckSendMessage | AckSendChannelMessage
    | UserOnline | UserOffline | OnlineUsers

  /** The name an event carries on the wire. */
  function WireName(e: EventName): string
  {
    match e
    case TransportConnect => "connect"
    case TransportDisconnect => "disconnect"
    case TransportConnectError => "connect_error"
    case TransportError => "error"
    case TestEvent => "test-event"
    case SocketReady => "socket-ready"
    case Heartbeat => "heartbeat"
    case JoinChannelRoom => "join-channel"
    case JoinRoom => "join"
    case SendToChannel => "send-message-to-channel"
    case SendDirect => "send-message"
    case ChannelTypingStop => "stop-typing-to-channel"
    case ChannelTypingStart => "typing-to-channel"
    case TypingStop => "stop-typing"
    case TypingStart => "typing"
    case ReceiveChannelMessage => "receive-message-to-channel"
    case ReceiveMessage => "receive-message"
    case UserOnline => "user-online"
    case UserOffline => "user-offline"
    case OnlineUsers => "online-users"
    case AckSendChannelMessage => "ack-send-message-to-channel"
    case AckSendMessage => "ack-send-message"
    case RequestOnlineUsers => "request-online-users"
  }

  /** The functions that get registered as handlers, by their names in the
      source: the service's own closures and the views' handlers. */
  datatype Role =
    | onConnect
    | onDisconnect
    | onConnectError
    | onError
    | onTestEvent
    | handleNewOneToOneMessage
    | handleTyping
    | handleStopTyping
    | handleOnlineUsers
    | handleUserOnline
    | handleUserOffline
    | handleMessageAck
    | requestOnlineUsers
    | handleNewChannelMessage
    | handleChannelTyping
    | handleChannelMessageAck

  /** The payload of an outgoing event. */
  datatype Payload =
    | NoPayload                                                     // `request-online-users`
    | RoomJoin(userId: string)                                      // `{userId}`
    | ChannelJoin(channelId: string, workspaceId: string)           // `{channelId, workspaceId}`
    | DirectMessage(senderId: string, receiverId: string, workspaceId: string, content: string)
    | ChannelPost(senderId: string, channelId: string, workspaceId: string, content: string)
    | TypingSignal(receiverId: string, conversationId: Option<string>, userId: string)
    | ChannelTypingSignal(channelId: string, workspaceId: string, userId: string)
    | Stamped(timestamp: int)                                       // `{timestamp}`

  /** One event handed to the transport for sending. */
  datatype Emit = Emit(event: EventName, payload: Payload)

  /** A function registered on the transport. `Callback` is a function a view
      passed in (named by its role and the view that owns it); `Wrapper` is the
      closure `onUserOnline`/`onUserOffline`/`onOnlineUsers` create around the
      caller's callback; `Internal` is one of the service's own closures;
      `Inline` is a closure a view writes in place at registration, a new one
      each time. */
  datatype Handler =
    | Callback(role: Role, owner: nat)
    | Wrapper(inner: Handler, serial: nat)
    | Internal(role: Role, serial: nat)
    | Inline(role: Role, owner: nat, serial: nat)

  datatype Registration = Registration(event: EventName, handler: Handler)

  /** The socket.io client: its auth token, whether it is connected and the
      handlers registered on it, oldest first. */
  datatype Transport = Transport(token: string, connected: bool, handlers: seq<Registration>)

  /** The service's own handlers installed by `connect`, all minted as `serial`. */
  function LifecycleHandlers(serial: nat): seq<Registration>
  {
    [Registration(TransportConnect, Internal(onConnect, serial)),
     Registration(TransportDisconnect, Internal(onDisconnect, serial)),
     Registration(TransportConnectError, Internal(onConnectError, serial)),
     Registration(TransportError, Internal(onError, serial))]
  }

  /** The emitter's `off(event, fn)`: the first registration equal to `r` goes,
      the others stay in order; no match changes nothing. */
  function RemoveFirst(hs: seq<Registration>, r: Registration): (out: seq<Registration>)
    ensures r !in hs ==> out == hs
    ensures r in hs ==> |out| == |hs| - 1
    decreases |hs|
  {
    if hs == [] then []
    else if hs[0] == r then hs[1..]
    else [hs[0]] + RemoveFirst(hs[1..], r)
  }

  /** `off` applied to each of `rs` in turn. */
  function RemoveEach(hs: seq<Registration>, rs: seq<Registration>): seq<Registration>
    decreases |rs|
  {
    if rs == [] then hs else RemoveEach(RemoveFirst(hs, rs[0]), rs[1..])
  }

  /** What an emit guarded by `if (this.socket)` sends: the event, or nothing
      without a socket. */
  function Emitted(s: Option<Transport>, e: Emit): (r: seq<Emit>)
    ensures |r| <= 1
    ensures r == [e] <==> s.Some?
  {
    if s.Some? then [e] else []
  }

  /** The held transport with `rs` registered as well; no transport stays none. */
  function Added(t: Option<Transport>, rs: seq<Registration>): (r: Option<Transport>)
    ensures r.Some? <==> t.Some?
    ensures r.Some? ==> r.value.handlers == t.value.handlers + rs && r.value.connected == t.value.connected
  {
    if t.Some? then Some(t.value.(handlers := t.value.handlers + rs)) else None
  }

  /** The held transport after `off` for each of `rs`. */
  function Removed(t: Option<Transport>, rs: seq<Registration>): (r: Option<Transport>)
    ensures r.Some? <==> t.Some?
    ensures r.Some? ==> r.value.handlers == RemoveEach(t.value.handlers, rs) && r.value.connected == t.value.connected
  {
    if t.Some? then Some(t.value.(handlers := RemoveEach(t.value.handlers, rs))) else None
  }

  /** The interval ids a heartbeat field denotes. */
  function IntervalSet(h: Option<nat>): set<nat>
  {
    if h.Some? then {h.value} else {}
  }

  class SocketService {
    var socket: Option<Transport>
    var isConnected: bool
    var heartbeatInterval: Option<nat>
    /** Intervals scheduled with the browser and not cleared. */
    var liveIntervals: set<nat>
    /** The next timer id the browser hands out; ids are positive. */
    var nextTimer: nat
    /** Serial for the next closure the service creates. */
    var minted: nat
    /** Every event emitted, oldest first. */
    var outbox: seq<Emit>

    /** Without a socket the service is not connected; its flag never claims a
        connection the transport does not have; exactly the interval named by
        `heartbeatInterval` is live, so at most one heartbeat runs. */
    predicate Valid()
      reads this
    {
      (isConnected ==> socket.Some? && socket.value.connected)
      && liveIntervals == IntervalSet(heartbeatInterval)
      && 0 < nextTimer && (forall h :: h in liveIntervals ==> 0 < h < nextTimer)
    }

    constructor()
      ensures Valid()
      ensures socket.None? && !isConnected && heartbeatInterval.None? && liveIntervals == {}
      ensures outbox == []
    {
      socket := None;
      isConnected := false;
      heartbeatInterval := None;
      liveIntervals := {};
      nextTimer := 1;
      minted := 0;
      outbox := [];
    }

    /** `isSocketConnected`: the service flag and the transport's flag together,
        false without a socket. Under the invariant it is the service flag. */
    function IsSocketConnected(): (r: bool)
      reads this
      ensures r ==> socket.Some?
      ensures Valid() ==> (r <==> isConnected)
    {
      isConnected && socket.Some? && socket.value.connected
    }

    /** `stopHeartbeat`: clear the interval, if any, and forget it. */
    method StopHeartbeat()
      modifies this`heartbeatInterval, this`liveIntervals
      requires Valid()
      ensures Valid()
      ensures heartbeatInterval.None? && liveIntervals == {}
    {
      if heartbeatInterval.Some? {
        liveIntervals := liveIntervals - {heartbeatInterval.value};
        heartbeatInterval := None;
      }
    }

    /** `startHeartbeat`: clear the running interval, if any, then schedule a
        fresh one; exactly one heartbeat is live afterwards. */
    method StartHeartbeat()
      modifies this`heartbeatInterval, this`liveIntervals, this`nextTimer
      requires Valid()
      ensures Valid()
      ensures heartbeatInterval == Some(old(nextTimer)) && liveIntervals == {old(nextTimer)}
      ensures old(heartbeatInterval).Some? ==> old(heartbeatInterval.value) !in liveIntervals
    {
      if heartbeatInterval.Some? {
        liveIntervals := liveIntervals - {heartbeatInterval.value};
      }
      var h := nextTimer;
      nextTimer := nextTimer + 1;
      liveIntervals := liveIntervals + {h};
      heartbeatInterval := Some(h);
    }

    /** One tick of a live heartbeat interval: emit a heartbeat only while a
        transport is held and connected. */
    method HeartbeatTick(h: nat, now: int)
      modifies this`outbox
      requires h in liveIntervals
      ensures outbox == old(outbox) + (if socket.Some? && socket.value.connected
                                       then [Emit(Heartbeat, Stamped(now))] else [])
    {
      if socket.Some? && socket.value.connected {
        outbox := outbox + [Emit(Heartbeat, Stamped(now))];
      }
    }

    /** `disconnect`: always stop the heartbeat; with a socket, drop it and clear
        the flag. A second call changes nothing. */
    method Disconnect()
      modifies this`heartbeatInterval, this`liveIntervals, this`socket, this`isConnected
      requires Valid()
      ensures Valid()
      ensures socket.None? && !isConnected && heartbeatInterval.None? && liveIntervals == {}
      ensures old(socket).None? && old(heartbeatInterval).None? ==>
        isConnected == old(isConnected) && liveIntervals == old(liveIntervals)
    {
      StopHeartbeat();
      if socket.Some? {
        socket := None;
        isConnected := false;
      }
    }

    /** `connect`: drop any held socket first, then hold a fresh, not yet
        connected transport carrying the service's four lifecycle handlers. */
    method Connect(token: string)
      modifies this
      requires Valid()
      ensures Valid()
      ensures socket == Some(Transport(token, false, LifecycleHandlers(old(minted))))
      ensures !isConnected && minted == old(minted) + 1
      ensures heartbeatInterval == (if old(socket).Some? then None else old(heartbeatInterval))
      ensures outbox == old(outbox) && nextTimer == old(nextTimer)
    {
      if socket.Some? {
        Disconnect();
      }
      socket := Some(Transport(token, false, LifecycleHandlers(minted)));
      minted := minted + 1;
    }

    /** The transport's `connect` event: the transport and the service are
        connected, a fresh `test-event` handler is registered (one more on every
        reconnection), `socket-ready` is emitted and the heartbeat restarts. */
    method OnTransportConnect(now: int)
      modifies this
      requires Valid() && socket.Some?
      ensures Valid()
      ensures isConnected && IsSocketConnected()
      ensures socket == Some(old(socket.value).(connected := true,
        handlers := old(socket.value.handlers) + [Registration(TestEvent, Internal(onTestEvent, old(minted)))]))
      ensures minted == old(minted) + 1
      ensures outbox == old(outbox) + [Emit(SocketReady, Stamped(now))]
      ensures heartbeatInterval == Some(old(nextTimer)) && liveIntervals == {old(nextTimer)}
    {
      var t := socket.value;
      socket := Some(t.(connected := true,
        handlers := t.handlers + [Registration(TestEvent, Internal(onTestEvent, minted))]));
      isConnected := true;
      minted := minted + 1;
      outbox := outbox + [Emit(SocketReady, Stamped(now))];
      StartHeartbeat();
    }

    /** The transport's `disconnect` event. The heartbeat keeps running; its ticks
        send nothing until the transport reconnects. */
    method OnTransportDisconnect()
      modifies this`socket, this`isConnected
      requires Valid() && socket.Some?
      ensures Valid()
      ensures !isConnected && !IsSocketConnected()
      ensures socket == Some(old(socket.value).(connected := false))
    {
      socket := Some(socket.value.(connected := false));
      isConnected := false;
    }

    /** The transport's `connect_error` event. */
    method OnConnectError()
      modifies this`isConnected
      requires Valid() && socket.Some?
      ensures Valid()
      ensures !isConnected && !IsSocketConnected()
    {
      isConnected := false;
    }

    /** An emit guarded by `if (this.socket)`. */
    method EmitIfOpen(e: Emit)
      modifies this`outbox
      ensures outbox == old(outbox) + Emitted(socket, e)
    {
      if socket.Some? {
        outbox := outbox + [e];
      }
    }

    /** `getSocket().emit(...)`: an emit straight on the held transport, which
        throws without one; every caller holds a socket. */
    method EmitOnTransport(e: Emit)
      modifies this`outbox
      requires socket.Some?
      ensures outbox == old(outbox) + [e]
    {
      outbox := outbox + [e];
    }

    method JoinPersonalRoom(userId: string)
      modifies this`outbox
      ensures outbox == old(outbox) + Emitted(socket, Emit(JoinRoom, RoomJoin(userId)))
    {
      EmitIfOpen(Emit(JoinRoom, RoomJoin(userId)));
    }

    method JoinChannel(channelId: string, workspaceId: string)
      modifies this`outbox
      ensures outbox == old(outbox) + Emitted(socket, Emit(JoinChannelRoom, ChannelJoin(channelId, workspaceId)))
    {
      EmitIfOpen(Emit(JoinChannelRoom, ChannelJoin(channelId, workspaceId)));
    }

    method SendMessage(data: Payload)
      modifies this`outbox
      ensures outbox == old(outbox) + Emitted(socket, Emit(SendDirect, data))
    {
      EmitIfOpen(Emit(SendDirect, data));
    }

    method SendChannelMessage(data: Payload)
      modifies this`outbox
      ensures outbox == old(outbox) + Emitted(socket, Emit(SendToChannel, data))
    {
      EmitIfOpen(Emit(SendToChannel, data));
    }

    method StartTyping(receiverId: string, conversationId: Option<string>, userId: string)
      modifies this`outbox
      ensures outbox == old(outbox) + Emitted(socket, Emit(TypingStart, TypingSignal(receiverId, conversationId, userId)))
    {
      EmitIfOpen(Emit(TypingStart, TypingSignal(receiverId, conversationId, userId)));
    }

    method StopTyping(receiverId: string, conversationId: Option<string>, userId: string)
      modifies this`outbox
      ensures outbox == old(outbox) + Emitted(socket, Emit(TypingStop, TypingSignal(receiverId, conversationId, userId)))
    {
      EmitIfOpen(Emit(TypingStop, TypingSignal(receiverId, conversationId, userId)));
    }

    method StartTypingInChannel(channelId: string, workspaceId: string, userId: string)
      modifies this`outbox
      ensures outbox == old(outbox) + Emitted(socket, Emit(ChannelTypingStart, ChannelTypingSignal(channelId, workspaceId, userId)))
    {
      EmitIfOpen(Emit(ChannelTypingStart, ChannelTypingSignal(channelId, workspaceId, userId)));
    }

    method StopTypingInChannel(channelId: string, workspaceId: string, userId: string)
      modifies this`outbox
      ensures outbox == old(outbox) + Emitted(socket, Emit(ChannelTypingStop, ChannelTypingSignal(channelId, workspaceId, userId)))
    {
      EmitIfOpen(Emit(ChannelTypingStop, ChannelTypingSignal(channelId, workspaceId, userId)));
    }

    /** Register `h` for `event` on the held transport; nothing without one. */
    method On(event: EventName, h: Handler)
      modifies this`socket
      ensures socket == Added(old(socket), [Registration(event, h)])
    {
      if socket.Some? {
        socket := Some(socket.value.(handlers := socket.value.handlers + [Registration(event, h)]));
      }
    }

    /** `off(event, callback)`: remove the first registration of exactly that
        function for that event; nothing without a socket. */
    method Off(event: EventName, h: Handler)
      modifies this`socket
      ensures socket == Removed(old(socket), [Registration(event, h)])
    {
      if socket.Some? {
        assert RemoveEach(socket.value.handlers, [Registration(event, h)])
            == RemoveFirst(socket.value.handlers, Registration(event, h));
        socket := Some(socket.value.(handlers := RemoveFirst(socket.value.handlers, Registration(event, h))));
      }
    }

    /** Register a wrapper closure around `cb`, as the presence registrations
        do; a new closure is minted only when a socket is held. */
    method OnWrapped(event: EventName, cb: Handler)
      modifies this`socket, this`minted
      ensures minted == old(minted) + (if old(socket).Some? then 1 else 0)
      ensures socket == Added(old(socket), [Registration(event, Wrapper(cb, old(minted)))])
    {
      if socket.Some? {
        On(event, Wrapper(cb, minted));
        minted := minted + 1;
      }
    }

    method OnMessage(cb: Handler)
      modifies this`socket
      ensures socket == Added(old(socket), [Registration(ReceiveMessage, cb)])
    {
      On(ReceiveMessage, cb);
    }

    method OnChannelMessage(cb: Handler)
      modifies this`socket
      ensures socket == Added(old(socket), [Registration(ReceiveChannelMessage, cb)])
    {
      On(ReceiveChannelMessage, cb);
    }

    method OnTyping(cb: Handler)
      modifies this`socket
      ensures socket == Added(old(socket), [Registration(TypingStart, cb)])
    {
      On(TypingStart, cb);
    }

    method OnStopTyping(cb: Handler)
      modifies this`socket
      ensures socket == Added(old(socket), [Registration(TypingStop, cb)])
    {
      On(TypingStop, cb);
    }

    method OnChannelTyping(cb: Handler)
      modifies this`socket
      ensures socket == Added(old(socket), [Registration(ChannelTypingStart, cb)])
    {
      On(ChannelTypingStart, cb);
    }

    method OnAckSendMessage(cb: Handler)
      modifies this`socket
      ensures socket == Added(old(socket), [Registration(AckSendMessage, cb)])
    {
      On(AckSendMessage, cb);
    }

    method OnAckSendChannelMessage(cb: Handler)
      modifies this`socket
      ensures socket == Added(old(socket), [Registration(AckSendChannelMessage, cb)])
    {
      On(AckSendChannelMessage, cb);
    }

    method OnSocketReady(cb: Handler)
      modifies this`socket
      ensures socket == Added(old(socket), [Registration(SocketReady, cb)])
    {
      On(SocketReady, cb);
    }

    method OnUserOnline(cb: Handler)
      modifies this`socket, this`minted
      ensures minted == old(minted) + (if old(socket).Some? then 1 else 0)
      ensures socket == Added(old(socket), [Registration(UserOnline, Wrapper(cb, old(minted)))])
    {
      OnWrapped(UserOnline, cb);
    }

    method OnUserOffline(cb: Handler)
      modifies this`socket, this`minted
      ensures minted == old(minted) + (if old(socket).Some? then 1 else 0)
      ensures socket == Added(old(socket), [Registration(UserOffline, Wrapper(cb, old(minted)))])
    {
      OnWrapped(UserOffline, cb);
    }

    method OnOnlineUsers(cb: Handler)
      modifies this`socket, this`minted
      ensures minted == old(minted) + (if old(socket).Some? then 1 else 0)
      ensures socket == Added(old(socket), [Registration(OnlineUsers, Wrapper(cb, old(minted)))])
    {
      OnWrapped(OnlineUsers, cb);
    }

    /** `offUserOnline(cb)` passes the raw callback, which was never registered
        for `user-online`: the wrapper stays. */
    method OffUserOnline(cb: Handler)
      modifies this`socket
      ensures socket == Removed(old(socket), [Registration(UserOnline, cb)])
    {
      Off(UserOnline, cb);
    }

    method OffUserOffline(cb: Handler)
      modifies this`socket
      ensures socket == Removed(old(socket), [Registration(UserOffline, cb)])
    {
      Off(UserOffline, cb);
    }

    method OffOnlineUsers(cb: Handler)
      modifies this`socket
      ensures socket == Removed(old(socket), [Registration(OnlineUsers, cb)])
    {
      Off(OnlineUsers, cb);
    }
  }

  /** `off` removes exactly one occurrence of `r` when there is one: every
      registration count is as before, less one for `r`. */
  lemma {:induction false} RemoveFirstRemovesOne(hs: seq<Registration>, r: Registration)
    ensures multiset(RemoveFirst(hs, r)) == multiset(hs) - multiset{r}
    decreases |hs|
  {
    if hs != [] {
      assert hs == [hs[0]] + hs[1..];
      if hs[0] != r {
        RemoveFirstRemovesOne(hs[1..], r);
      }
    }
  }

  /** `off` on a list with a later part: the first match is in the front part
      when the front part has one, otherwise in the rest. */
  lemma {:induction false} RemoveFirstAppend(a: seq<Registration>, b: seq<Registration>, r: Registration)
    ensures RemoveFirst(a + b, r) == if r in a then RemoveFirst(a, r) + b else a + RemoveFirst(b, r)
    decreases |a|
  {
    if a == [] {
      assert a + b == b;
    } else {
      assert (a + b)[0] == a[0];
      assert (a + b)[1..] == a[1..] + b;
      if a[0] != r {
        RemoveFirstAppend(a[1..], b, r);
        assert r in a <==> r in a[1..];
      }
    }
  }

  /** Removing the raw callback leaves every wrapper registration in place: the
      number of registrations of `Wrapper(cb, k)` is unchanged. */
  lemma OffKeepsWrapper(hs: seq<Registration>, event: EventName, cb: Handler, k: nat)
    ensures multiset(RemoveFirst(hs, Registration(event, cb)))[Registration(event, Wrapper(cb, k))]
         == multiset(hs)[Registration(event, Wrapper(cb, k))]
  {
    RemoveFirstRemovesOne(hs, Registration(event, cb));
    assert Registration(event, cb) != Registration(event, Wrapper(cb, k)) by {
      assert cb < Wrapper(cb, k);
    }
  }

  /** Registering a presence callback and then calling the matching `off*`
      leaves the wrapper registered, still last. */
  lemma PresenceRegistrationLeaks(hs: seq<Registration>, event: EventName, cb: Handler, k: nat)
    ensures RemoveFirst(hs + [Registration(event, Wrapper(cb, k))], Registration(event, cb))
         == RemoveFirst(hs, Registration(event, cb)) + [Registration(event, Wrapper(cb, k))]
  {
    RemoveFirstAppend(hs, [Registration(event, Wrapper(cb, k))], Registration(event, cb));
    assert Registration(event, cb) != Registration(event, Wrapper(cb, k)) by {
      assert cb < Wrapper(cb, k);
    }
  }

  lemma {:induction false} RemoveEachAppend(hs: seq<Registration>, a: seq<Registration>, b: seq<Registration>)
    ensures RemoveEach(RemoveEach(hs, a), b) == RemoveEach(hs, a + b)
    decreases |a|
  {
    if a == [] {
      assert a + b == b;
    } else {
      assert (a + b)[0] == a[0];
      assert (a + b)[1..] == a[1..] + b;
      RemoveEachAppend(RemoveFirst(hs, a[0]), a[1..], b);
    }
  }

  /** Two removals in a row remove both. */
  lemma RemovedTwice(t: Option<Transport>, a: seq<Registration>, b: seq<Registration>)
    ensures Removed(Removed(t, a), b) == Removed(t, a + b)
  {
    if t.Some? {
      RemoveEachAppend(t.value.handlers, a, b);
    }
  }

  /** Two registrations in a row register both. */
  lemma AddedTwice(t: Option<Transport>, a: seq<Registration>, b: seq<Registration>)
    ensures Added(Added(t, a), b) == Added(t, a + b)
  {
    if t.Some? {
      assert (t.value.handlers + a) + b == t.value.handlers + (a + b);
    }
  }

  /** Plain registration followed by `off` of the same function restores the
      registration counts; when the function was not registered before, it
      restores the list itself. */
  lemma OnThenOffRestores(hs: seq<Registration>, event: EventName, cb: Handler)
    ensures multiset(RemoveFirst(hs + [Registration(event, cb)], Registration(event, cb))) == multiset(hs)
    ensures Registration(event, cb) !in hs ==>
      RemoveFirst(hs + [Registration(event, cb)], Registration(event, cb)) == hs
  {
    var r := Registration(event, cb);
    RemoveFirstRemovesOne(hs + [r], r);
    assert multiset(hs + [r]) == multiset(hs) + multiset{r};
    RemoveFirstAppend(hs, [r], r);
    assert [r][1..] == [];
  }

  /** Removals that find no match in the front part act on the rest only. */
  lemma {:induction false} RemoveEachBehind(hs: seq<Registration>, b: seq<Registration>, rs: seq<Registration>)
    requires forall r :: r in rs ==> r !in hs
    ensures RemoveEach(hs + b, rs) == hs + RemoveEach(b, rs)
    decreases |rs|
  {
    if rs != [] {
      RemoveFirstAppend(hs, b, rs[0]);
      RemoveEachBehind(hs, RemoveFirst(b, rs[0]), rs[1..]);
    }
  }

  /** Removing a list's own leading registrations, in order, leaves the rest. */
  lemma {:induction false} RemoveEachPrefix(a: seq<Registration>, rest: seq<Registration>, rs: seq<Registration>)
    ensures RemoveEach(a + rest, a + rs) == RemoveEach(rest, rs)
    decreases |a|
  {
    if a != [] {
      assert (a + rest)[0] == a[0] && (a + rs)[0] == a[0];
      assert (a + rest)[1..] == a[1..] + rest;
      assert (a + rs)[1..] == a[1..] + rs;
      RemoveEachPrefix(a[1..], rest, rs);
    } else {
      assert a + rest == rest && a + rs == rs;
    }
  }

  /** `off` of functions that are not registered changes nothing. */
  lemma {:induction false} OffMissing(hs: seq<Registration>, rs: seq<Registration>)
    requires forall r :: r in rs ==> r !in hs
    ensures RemoveEach(hs, rs) == hs
    decreases |rs|
  {
    if rs != [] {
      OffMissing(hs, rs[1..]);
    }
  }
}

=== FILE: timeline.dfy ===
/** Messages as the chat views receive them, and the merge that both views apply
    to their timeline and their set of processed message ids. */
module Timeline {
  import opened Common

  type UserId = string
  type MessageId = string

  /** A chat message as delivered by the server. Optional string fields that the
      views only test for truthiness are the empty string when absent. */
  datatype Message = Message(
    id: MessageId,               // `_id`
    senderId: Option<UserId>,
    receiverId: Option<UserId>,
    channelId: Option<string>,
    content: string,
    createdAt: Option<int>,      // milliseconds since the epoch
    sentAt: Option<int>,         // milliseconds since the epoch
    senderName: string,          // `senderName`, "" when absent
    senderObjName: string)       // `sender.name`, "" when absent

  /** The payload of `receive-message*` and `ack-send-message*`: `{success, message}`. */
  datatype Delivery = Delivery(success: bool, message: Option<Message>)

  /** The `result` part of a history reply: missing, without a `messages` list, or with one. */
  datatype Page = NoResult | NoMessageList | Messages(items: seq<Message>)

  /** A history request's outcome: the server's `{success, result, message}` (message ""
      when absent), or an exception from the HTTP layer. */
  datatype HistoryReply = Answered(success: bool, result: Page, message: string) | Threw

  /** The history request a view issues. */
  datatype HistoryRequest =
    | OneToOneHistory(senderId: UserId, receiverId: UserId, page: nat, limit: nat)
    | ChannelHistory(channelId: string, workspaceId: string, page: nat, limit: nat)

  /** Error text a failed load shows. */
  const LoadFailed := "Failed to load messages"

  /** A view's message list together with its set of processed message ids. */
  datatype TimelineState = TimelineState(messages: seq<Message>, seen: set<MessageId>)

  /** `messages.some(msg => msg._id === id)`. */
  predicate Holds(ms: seq<Message>, id: MessageId)
  {
    exists i :: 0 <= i < |ms| && ms[i].id == id
  }

  /** No two entries of the timeline carry the same id. */
  predicate DistinctIds(ms: seq<Message>)
  {
    forall i, j :: 0 <= i < j < |ms| ==> ms[i].id != ms[j].id
  }

  /** Every id in the timeline is in the processed set. */
  predicate Covered(t: TimelineState)
  {
    forall i :: 0 <= i < |t.messages| ==> t.messages[i].id in t.seen
  }

  /** The ids of a list of messages. */
  function IdSet(ms: seq<Message>): set<MessageId>
  {
    set i | 0 <= i < |ms| :: ms[i].id
  }

  /** Adding one message to a list adds its id to the list's ids. */
  lemma IdSetSnoc(ms: seq<Message>, m: Message)
    ensures IdSet(ms + [m]) == IdSet(ms) + {m.id}
  {
    var ns := ms + [m];
    assert ns[|ms|].id == m.id;
    forall id | id in IdSet(ms) ensures id in IdSet(ns) {
      var i :| 0 <= i < |ms| && ms[i].id == id;
      assert ns[i].id == id;
    }
  }

  /** The messages of a history page: none when the reply has no `result` or no
      `messages` list. */
  function PageItems(p: Page): (r: seq<Message>)
    ensures p.Messages? ==> r == p.items
    ensures !p.Messages? ==> r == []
  {
    if p.Messages? then p.items else []
  }

  /** A successful history load: the page becomes the timeline and the processed
      set becomes exactly the page's ids. */
  function Loaded(page: seq<Message>): (r: TimelineState)
    ensures r.messages == page && Covered(r)
    ensures forall id :: id in r.seen <==> Holds(page, id)
    ensures DistinctIds(r.messages) <==> DistinctIds(page)
  {
    TimelineState(page, IdSet(page))
  }

  /** The check-then-insert both inbound sources share: a message whose id is
      processed, or already in the timeline, changes nothing; otherwise it is
      appended at the end and its id is marked processed. */
  function Admit(t: TimelineState, m: Message): (r: TimelineState)
    ensures r == t || (m.id !in t.seen && !Holds(t.messages, m.id))
    ensures r != t ==> r.messages == t.messages + [m] && r.seen == t.seen + {m.id}
    ensures m.id !in t.seen && !Holds(t.messages, m.id) ==> r.messages == t.messages + [m]
    ensures m.id in r.seen || Holds(r.messages, m.id)
    ensures DistinctIds(t.messages) ==> DistinctIds(r.messages)
    ensures Covered(t) ==> Covered(r)
  {
    if m.id in t.seen then t
    else if Holds(t.messages, m.id) then t
    else
      var r := TimelineState(t.messages + [m], t.seen + {m.id});
      assert r.messages[|t.messages|] == m;
      r
  }

  /** `handleMessageAck` / `handleChannelMessageAck`: an acknowledgement with
      `success` and a message is admitted, anything else is ignored. */
  function AckStep(t: TimelineState, d: Delivery): (r: TimelineState)
    ensures !d.success || d.message.None? ==> r == t
    ensures d.success && d.message.Some? ==> r == Admit(t, d.message.value)
  {
    if d.success && d.message.Some? then Admit(t, d.message.value) else t
  }

  /** When every timeline id is processed, the second duplicate check (against the
      timeline) never rejects a message the first check (against the processed
      set) let through. */
  lemma SeenCheckSubsumesTimelineCheck(t: TimelineState, m: Message)
    requires Covered(t) && m.id !in t.seen
    ensures !Holds(t.messages, m.id)
    ensures Admit(t, m).messages == t.messages + [m]
  {
  }

  /** Delivering two messages with the same id, in either order, adds at most one
      entry; exactly one (the first delivered) when the id was new. */
  lemma {:induction false} SameIdTwiceAddsOnce(t: TimelineState, m1: Message, m2: Message)
    requires m1.id == m2.id && Covered(t)
    ensures var r := Admit(Admit(t, m1), m2);
      |r.messages| <= |t.messages| + 1 &&
      (m1.id !in t.seen ==> r.messages == t.messages + [m1])
  {
    var s := Admit(t, m1);
    assert m2.id in s.seen || Holds(s.messages, m2.id);
    assert Admit(s, m2) == s;
  }

  /** A run of admissions, in delivery order. */
  function AdmitAll(t: TimelineState, ms: seq<Message>): TimelineState
    decreases |ms|
  {
    if ms == [] then t else AdmitAll(Admit(t, ms[0]), ms[1..])
  }

  /** Over any run of deliveries the timeline only grows at its end, keeps its
      ids distinct and covered, and every delivered id ends up processed. */
  lemma {:induction false} AdmitAllInvariants(t: TimelineState, ms: seq<Message>)
    requires Covered(t)
    ensures var r := AdmitAll(t, ms);
      Covered(r) && t.messages <= r.messages &&
      r.seen == t.seen + IdSet(ms) &&
      (DistinctIds(t.messages) ==> DistinctIds(r.messages))
    decreases |ms|
  {
    if ms != [] {
      var s := Admit(t, ms[0]);
      AdmitAllInvariants(s, ms[1..]);
      assert s.seen == t.seen + {ms[0].id} by {
        assert ms[0].id in s.seen || Holds(s.messages, ms[0].id);
      }
      assert IdSet(ms) == {ms[0].id} + IdSet(ms[1..]) by {
        forall id | id in IdSet(ms) ensures id in {ms[0].id} + IdSet(ms[1..]) {
          var i :| 0 <= i < |ms| && ms[i].id == id;
          if i > 0 { assert ms[1..][i - 1].id == id; }
        }
        forall id | id in IdSet(ms[1..]) ensures id in IdSet(ms) {
          var i :| 0 <= i < |ms[1..]| && ms[1..][i].id == id;
          assert ms[i + 1].id == id;
        }
      }
    }
  }

  /** Redelivering messages whose ids are all processed (for instance a
      whole batch a second time) leaves the timeline untouched. */
  lemma {:induction false} RedeliveryIsNoop(t: TimelineState, ms: seq<Message>)
    requires forall i :: 0 <= i < |ms| ==> ms[i].id in t.seen
    ensures AdmitAll(t, ms) == t
    decreases |ms|
  {
    if ms != [] {
      assert Admit(t, ms[0]) == t;
      RedeliveryIsNoop(t, ms[1..]);
    }
  }

  /** Admitting a batch twice is the same as admitting it once. */
  lemma AdmitAllIdempotent(t: TimelineState, ms: seq<Message>)
    requires Covered(t)
    ensures AdmitAll(AdmitAll(t, ms), ms) == AdmitAll(t, ms)
  {
    AdmitAllInvariants(t, ms);
    var r := AdmitAll(t, ms);
    forall i | 0 <= i < |ms| ensures ms[i].id in r.seen {
      assert ms[i].id in IdSet(ms);
    }
    RedeliveryIsNoop(r, ms);
  }
}

=== FILE: typing.dfy ===
/** Inbound typing indicators as both chat views keep them: a list with at most
    one entry per user, and a queue of pending 3000 ms removal timers. Every start
    event schedules its own removal; nothing cancels a scheduled removal. */
module Typing {
  import opened Common

  type UserId = string

  /** Removal delay scheduled by every typing-start event, in milliseconds. */
  const ExpiryMs := 3000

  /** One entry of `typingUsers`: the one-to-one view stores `{userId, timestamp}`,
      the channel view `{userId, channelId}`. */
  datatype TypingEntry = TypingEntry(userId: UserId, channelId: Option<string>, since: Option<int>)

  /** The entries on screen and the users whose removal timers are pending, oldest
      first. All removal timers share one delay, so they fire in the order they
      were scheduled. */
  datatype TypingState = TypingState(entries: seq<TypingEntry>, expiries: seq<UserId>)

  const NoTyping := TypingState([], [])

  /** The entries of user `u`, in list order. */
  function EntriesOf(es: seq<TypingEntry>, u: UserId): seq<TypingEntry>
    decreases |es|
  {
    if es == [] then []
    else (if es[0].userId == u then [es[0]] else []) + EntriesOf(es[1..], u)
  }

  /** `prev.filter(u => u.userId !== userId)`. */
  function WithoutUser(es: seq<TypingEntry>, u: UserId): (r: seq<TypingEntry>)
    ensures |r| <= |es|
    ensures forall i :: 0 <= i < |r| ==> r[i].userId != u && r[i] in es
    decreases |es|
  {
    if es == [] then []
    else (if es[0].userId == u then [] else [es[0]]) + WithoutUser(es[1..], u)
  }

  /** At most one entry per user. */
  predicate OnePerUser(es: seq<TypingEntry>)
  {
    forall i, j :: 0 <= i < j < |es| ==> es[i].userId != es[j].userId
  }

  /** Every user on screen has a removal pending. */
  predicate EveryEntryExpires(s: TypingState)
  {
    forall i :: 0 <= i < |s.entries| ==> s.entries[i].userId in s.expiries
  }

  predicate Valid(s: TypingState)
  {
    OnePerUser(s.entries) && EveryEntryExpires(s)
  }

  /** Removing one user keeps every other user's entries, in order. */
  lemma {:induction false} WithoutUserKeepsOthers(es: seq<TypingEntry>, u: UserId, v: UserId)
    ensures EntriesOf(WithoutUser(es, u), v) == if u == v then [] else EntriesOf(es, v)
    decreases |es|
  {
    if es != [] {
      WithoutUserKeepsOthers(es[1..], u, v);
      var head := if es[0].userId == u then [] else [es[0]];
      EntriesOfAppend(head, WithoutUser(es[1..], u), v);
    }
  }

  lemma {:induction false} EntriesOfAppend(a: seq<TypingEntry>, b: seq<TypingEntry>, v: UserId)
    ensures EntriesOf(a + b, v) == EntriesOf(a, v) + EntriesOf(b, v)
    decreases |a|
  {
    if a != [] {
      assert (a + b)[0] == a[0];
      assert (a + b)[1..] == a[1..] + b;
      EntriesOfAppend(a[1..], b, v);
    } else {
      assert a + b == b;
    }
  }

  lemma {:induction false} WithoutUserOnePerUser(es: seq<TypingEntry>, u: UserId)
    requires OnePerUser(es)
    ensures OnePerUser(WithoutUser(es, u))
    decreases |es|
  {
    if es != [] {
      WithoutUserOnePerUser(es[1..], u);
      var r := WithoutUser(es, u);
      if es[0].userId != u {
        forall j | 1 <= j < |r| ensures r[0].userId != r[j].userId {
          assert r[j] in es[1..];
        }
      }
    }
  }

  /** The list after a typing-start event for `e.userId`. */
  function Started(es: seq<TypingEntry>, e: TypingEntry): (r: seq<TypingEntry>)
    ensures |r| >= 1 && r[|r| - 1] == e
  {
    WithoutUser(es, e.userId) + [e]
  }

  /** After a start event the user has exactly that one entry, at the end, and
      every other user's entries are untouched; one-entry-per-user is kept. */
  lemma StartedShape(es: seq<TypingEntry>, e: TypingEntry, v: UserId)
    ensures EntriesOf(Started(es, e), e.userId) == [e]
    ensures v != e.userId ==> EntriesOf(Started(es, e), v) == EntriesOf(es, v)
    ensures OnePerUser(es) ==> OnePerUser(Started(es, e))
  {
    var w := WithoutUser(es, e.userId);
    EntriesOfAppend(w, [e], e.userId);
    EntriesOfAppend(w, [e], v);
    WithoutUserKeepsOthers(es, e.userId, e.userId);
    WithoutUserKeepsOthers(es, e.userId, v);
    assert [e][1..] == [];
    if OnePerUser(es) {
      WithoutUserOnePerUser(es, e.userId);
      var r := w + [e];
      forall i, j | 0 <= i < j < |r| ensures r[i].userId != r[j].userId {
        if j == |r| - 1 { assert r[i] in w; }
      }
    }
  }

  /** A typing-start event: replace the user's entry and schedule its removal. */
  function Start(s: TypingState, e: TypingEntry): (r: TypingState)
    ensures r.expiries == s.expiries + [e.userId]
    ensures Valid(s) ==> Valid(r)
  {
    var r := TypingState(Started(s.entries, e), s.expiries + [e.userId]);
    StartedShape(s.entries, e, e.userId);
    assert Valid(s) ==> EveryEntryExpires(r) by {
      if Valid(s) {
        forall i | 0 <= i < |r.entries| ensures r.entries[i].userId in r.expiries {
          if i < |r.entries| - 1 {
            assert r.entries[i] in s.entries;
          }
        }
      }
    }
    r
  }

  /** A typing-stop event: drop the user's entry at once. Pending removals stay
      scheduled. */
  function Stop(s: TypingState, u: UserId): (r: TypingState)
    ensures r.expiries == s.expiries
    ensures Valid(s) ==> Valid(r)
  {
    var r := TypingState(WithoutUser(s.entries, u), s.expiries);
    assert Valid(s) ==> Valid(r) by {
      if Valid(s) { WithoutUserOnePerUser(s.entries, u); }
    }
    r
  }

  /** The oldest pending removal timer fires: its user's entries go. */
  function ExpireOldest(s: TypingState): (r: TypingState)
    requires s.expiries != []
    ensures r.expiries == s.expiries[1..]
    ensures Valid(s) ==> Valid(r)
  {
    var u := s.expiries[0];
    var r := TypingState(WithoutUser(s.entries, u), s.expiries[1..]);
    assert Valid(s) ==> Valid(r) by {
      if Valid(s) {
      WithoutUserOnePerUser(s.entries, u);
      forall i | 0 <= i < |r.entries| ensures r.entries[i].userId in r.expiries {
        var v := r.entries[i].userId;
        assert r.entries[i] in s.entries;
        var k :| 0 <= k < |s.entries| && s.entries[k] == r.entries[i];
        assert v in s.expiries && v != u;
        var j :| 0 <= j < |s.expiries| && s.expiries[j] == v;
        assert s.expiries[1..][j - 1] == v;
      }
      }
    }
    r
  }

  lemma ShownImpliesPending(s: TypingState)
    requires EveryEntryExpires(s)
    ensures s.entries != [] ==> s.expiries != []
  {
    if s.entries != [] {
      assert s.entries[0].userId in s.expiries;
    }
  }

  /** Every pending removal fires, oldest first. */
  function ExpireAll(s: TypingState): (r: TypingState)
    ensures r.expiries == []
    decreases |s.expiries|
  {
    if s.expiries == [] then s else ExpireAll(ExpireOldest(s))
  }

  /** Once the window of every start event has elapsed, nobody is shown typing. */
  lemma {:induction false} AllExpiredShowsNobody(s: TypingState)
    requires Valid(s)
    ensures ExpireAll(s).entries == []
    decreases |s.expiries|
  {
    if s.expiries == [] {
      ShownImpliesPending(s);
    } else {
      AllExpiredShowsNobody(ExpireOldest(s));
    }
  }

  /** Removal is not debounced: a user who starts typing twice is removed when the
      FIRST start's timer fires, while the second start's timer is still pending. */
  lemma RestartDoesNotRearm(e1: TypingEntry, e2: TypingEntry)
    requires e1.userId == e2.userId
    ensures var r := ExpireOldest(Start(Start(NoTyping, e1), e2));
      EntriesOf(r.entries, e1.userId) == [] && r.expiries == [e2.userId]
  {
    var s := Start(Start(NoTyping, e1), e2);
    WithoutUserKeepsOthers(s.entries, e1.userId, e1.userId);
  }

  /** A start event shows the user immediately. */
  lemma StartShowsUser(s: TypingState, e: TypingEntry)
    ensures exists i :: 0 <= i < |Start(s, e).entries| && Start(s, e).entries[i].userId == e.userId
  {
    var r := Start(s, e);
    assert r.entries[|r.entries| - 1] == e;
  }
}
